=== FILE: README.md ===
# Kaohsiung parking-lot directory: listing pipeline

A Dafny model of the logic in `assets/app.js` of the parking-lot directory page:

- **Normalisation.** Each raw feed record becomes one canonical record (`normalizeItem`).
- **Thumbnail.** One thumbnail URL is chosen (`getThumbnailUrl`).
- **Filter and sort.** The canonical records are filtered by keyword, vehicle type, differential pricing and cap/monthly markers. They are then sorted by name or by the first number in the weekday price (`applyFilters`, `getPriceNumber`).
- **Grouping.** The result is grouped by district for display (`renderList`).
- **Page helpers.** The payload unwrap of `init`, the map-link fallback, the vehicle tags and the rating label of a card are modelled too.

Modules, one per part of the page script:

| module | file | models |
|---|---|---|
| `Wrappers` | wrappers.dfy | `Option` |
| `Text` | text.dfy | `trim`, `toLowerCase` (ASCII), `includes` / literal regex test, `replace` with a string pattern |
| `Records` | records.dfy | raw and canonical record types, `normalizeItem`, the `.{2}區` district match |
| `NormalizeFacts` | normalize_facts.dfy | what `normalizeItem` promises |
| `Thumbnails` | thumbnails.dfy | `getThumbnailUrl` |
| `Prices` | prices.dfy | `getPriceNumber` and the weekday comparator |
| `Subsequences` | subsequences.dfy | `Array.prototype.filter` on sequences |
| `Sorting` | sorting.dfy | stable `Array.prototype.sort` as an in-place insertion sort |
| `Query` | query.dfy | the filter predicate, the filter and the two sort orders of `applyFilters` |
| `Grouping` | grouping.dfy | the district `reduce` and key sort of `renderList` |
| `Cards` | cards.dfy | map link, tags and rating label of `renderCard` / `renderGoogleRating` |
| `App` | app.dfy | the `state` object: `init`, `applyFilters`, `renderList` |

JavaScript `a || b` is modelled as "a when it is a non-empty string, else b" on string fields. On the nested objects (`pricing`, `google`, `thumbnail`, `place_photo`, `templates`) it is "a when present": an empty object is truthy. So a present but empty `place_photo.templates` hides `thumbnail.templates`.

The model follows `assets/app.js`, and so it does not have the following, which `app.js` does not do:

- It does not patch ratings from an override feed. `app.js` loads only the primary and fallback data files.
- It does not read a top-level weekday fee. Prices are read only from the nested `pricing` object.
- It does not split vehicle lists on separators. It only tests for the substrings 汽車 and 機車.
- It does not anchor the district pattern after the city name or cap its length.
- Normalisation is not idempotent on its own output. A canonical record keeps its name under `parkingName`, which `normalizeItem` does not read, so normalising it again would name it 未命名停車場.

The model also shows `app.js` behaviour as written. The district pattern matches at the first 區 that has two characters other than line terminators before it, and takes those three characters. So 高雄市那瑪夏區 is filed under 瑪夏區 (`NormalizeFacts.FourCharacterDistrictIsCut`), and 區公所旁苓雅區 under 苓雅區.

The sort comparator for weekday prices is `getPriceNumber(a) - getPriceNumber(b)`. With two price texts that hold no number this is `Infinity - Infinity`, which is NaN. `Array.prototype.sort` reads NaN as 0, so such records tie and keep their order (`Prices.PriceNotAfter`).

## Model

| member | source | states |
|---|---|---|
| `Records.NormalizeItem` | assets/app.js:49-87 | total; the lot name and the district are never empty; `hasCar` / `hasMoto` hold exactly when the chosen vehicle text contains 汽車 / 機車; every other field is stated by the `NormalizeFacts` lemmas below |
| `Records.MatchDistrict` | assets/app.js:58 | `None` exactly when no index matches `.{2}區`; otherwise the three characters at the leftmost matching index |
| `Records.DistrictIndexFrom` | assets/app.js:58 | the result is a matching index, and no index before it (from the start point) matches |
| `Records.DistrictOf` | assets/app.js:59 | the district is never empty |
| `Records.TemplatesOf` | assets/app.js:55 | the templates object is the first present one of `place_photo.templates`, `thumbnail.templates` and `templates`; a present empty object still wins; none gives an empty object |
| `NormalizeFacts.NamePrecedence` | assets/app.js:67 | the name is `parking_name` if non-empty, else `name` if non-empty, else 未命名停車場 |
| `NormalizeFacts.AddressPrecedence` | assets/app.js:57 | the address is `address` if non-empty, else `address_text` if non-empty, else "" |
| `NormalizeFacts.DistrictFromAddress` | assets/app.js:57-59 | without a declared district: 其他 iff the address has no `.{2}區` window; otherwise a 3-character string ending in 區 that is the leftmost such window of the address |
| `NormalizeFacts.DeclaredDistrictWins` | assets/app.js:59 | a non-empty declared district is used whatever the address holds |
| `NormalizeFacts.LingyaAddress` | assets/app.js:57-59 | 高雄市苓雅區四維三路2號 gives 苓雅區 |
| `NormalizeFacts.FourCharacterDistrictIsCut` | assets/app.js:58 | 高雄市那瑪夏區 gives 瑪夏區: only two characters are taken before 區 |
| `NormalizeFacts.NoAddressIsOther` | assets/app.js:57-59 | no declared district and no address gives 其他 |
| `NormalizeFacts.VehiclePrecedence` | assets/app.js:61-63 | the vehicle text is `vehicle_types` if non-empty, else `vehicleType` if non-empty, else "" (with both flags off); each flag holds exactly when that text contains its word |
| `NormalizeFacts.VehicleFlagsExample` | assets/app.js:61-63 | "汽車、機車" sets both flags; an empty `vehicle_types` falls back to `vehicleType` "機車", which sets only the motorcycle flag |
| `NormalizeFacts.IdFallback` | assets/app.js:66 | the id is `id` if non-empty, else `parking_name` (or "") joined to the address with "-" |
| `NormalizeFacts.PricingPrecedence` | assets/app.js:73-74 | the weekday price is `pricing.weekday` if non-empty, else `pricing.weekday_fee` if non-empty, else ""; the weekend price likewise from the weekend fields; no `pricing` object gives "" for both |
| `NormalizeFacts.GoogleFields` | assets/app.js:75-77 | rating and review count are `google.rating` and `google.review_count` unchanged (absent without `google`); the maps URL is `google.maps_url`, else `google.url`, else "" |
| `NormalizeFacts.ThumbnailFields` | assets/app.js:78-85 | URL, photo reference and resource name are the `thumbnail.place_photo` leaves, the street-view URL is `thumbnail.street_view.url`, the two templates are those of the templates object `TemplatesOf` picks; each is "" when missing or empty |
| `Text.Trim` | assets/app.js:106 | the result is an infix of the input with only ECMAScript whitespace removed at both ends, and it is empty iff the input is all whitespace |
| `Text.ToLower` | assets/app.js:107 | length is kept and each character is lowered independently |
| `Text.IndexOf` | assets/app.js:115 | the result is an occurrence and no earlier index is one |
| `Text.Contains` | assets/app.js:62-63 | `includes` and the literal-pattern `test`: true exactly when `indexOf` finds the pattern; always true for the empty pattern, false for a pattern longer than the text |
| `Text.ReplaceFirst` | assets/app.js:94 | without an occurrence the text is unchanged; otherwise exactly the leftmost occurrence is replaced and the rest is kept verbatim |
| `Text.ReplaceFirstAtStart` | assets/app.js:94 | for any pattern `p`, replacing in `p + mid + p` changes only the leading occurrence |
| `Thumbnails.ThumbnailUrl` | assets/app.js:89-103 | a non-empty direct URL always wins; the result is "" iff the direct URL, both template branches and the street-view URL are all unavailable |
| `Thumbnails.ClassicTemplateSubstitution` | assets/app.js:93-95 | without a direct URL, a reference plus classic template gives the template with its leftmost PHOTO_REFERENCE replaced |
| `Thumbnails.NewTemplateSubstitution` | assets/app.js:96-98 | the new-style template is used only when the classic branch is unavailable, with its leftmost PHOTO_RESOURCE_NAME replaced |
| `Thumbnails.ClassicWithoutToken` | assets/app.js:93-95 | without a direct URL, a usable classic template that does not contain PHOTO_REFERENCE is returned unchanged |
| `Thumbnails.NewWithoutToken` | assets/app.js:96-98 | when only the new-style branch is usable, a template that does not contain PHOTO_RESOURCE_NAME is returned unchanged |
| `Thumbnails.StreetViewFallback` | assets/app.js:99-102 | with no direct URL and neither template branch, the street-view URL (possibly "") is the result |
| `Thumbnails.ReplacesOnlyFirstToken` | assets/app.js:94 | a template naming PHOTO_REFERENCE twice keeps the second occurrence |
| `Thumbnails.ReplaceFirstNonEmpty` | assets/app.js:93-98 | substituting a non-empty value into a non-empty template never yields "" |
| `Prices.FirstNumeral` | assets/app.js:148 | the leftmost-longest match of `\d+(?:\.\d+)?`: no digit before it, whole part not extendable, fraction taken exactly when a dot and a digit follow |
| `Prices.PriceNumber` | assets/app.js:147-153 | `None` (+Infinity) exactly when the text has no ASCII digit; otherwise the non-negative value of the leftmost numeral |
| `Prices.NumeralValue` | assets/app.js:152 | the value of a matched numeral is non-negative |
| `Prices.FractionValue` | assets/app.js:152 | fraction digits denote a value in [0, 1) |
| `Prices.WholeValueAppend` | assets/app.js:152 | digits are read left to right: appending digits `b` to `a` multiplies the value of `a` by 10 to the `|b|` and adds the value of `b` |
| `Prices.NumeralDecimal` | assets/app.js:152 | a numeral `w.f` has the value of the digits `wf` read as one integer, divided by 10 to the `|f|` |
| `Prices.NumeralWhole` | assets/app.js:152 | a numeral without fraction has the value of its digits |
| `Prices.PlainPrices` | assets/app.js:147-153 | "50" gives 50, "100" gives 100, "" gives +Infinity |
| `Prices.FirstPriceInText` | assets/app.js:148-152 | the first number in free text is taken and later ones are ignored: 每小時30元，上限200元 gives 30 |
| `Prices.FractionalPrice` | assets/app.js:148-152 | a decimal fraction is kept: 12.5元 gives 12.5 |
| `Prices.TwoDigitFraction` | assets/app.js:148-152 | several fraction digits are read together: 12.25元 gives 12.25 |
| `Prices.PriceNotAfter` | assets/app.js:140 | the weekday comparator is at most 0 exactly when the first price is at most the second, where a text without a number is +Infinity, comes after every number and ties with another such text |
| `Subsequences.KeepAppend` | assets/app.js:113 | filtering preserves order: filtering a concatenation filters each part in place |
| `Subsequences.KeepCounts` | assets/app.js:113 | each kept value keeps all its copies; every other value loses them all |
| `Sorting.SortByMembers` | assets/app.js:137-141 | sorting keeps the length and exactly the elements of the input |
| `Sorting.StableSort` | assets/app.js:137-141 | the array afterwards holds the stable insertion sort of its old contents |
| `Sorting.InsertLast` | assets/app.js:137-141 | one insertion step: the prefix grows by inserting the next element behind every element not greater than it, and the rest of the array is unchanged |
| `Sorting.SortByPermutes` | assets/app.js:137-141 | sorting is a permutation |
| `Sorting.SortBySorted` | assets/app.js:137-141 | for a total preorder the result is sorted |
| `Sorting.SortByStable` | assets/app.js:137-141 | for every element, the elements that tie with it appear in the output in their input order |
| `Sorting.SortByDistinct` | assets/app.js:173 | sorting a list without repetitions gives one without repetitions |
| `Query.Passes` | assets/app.js:114-132 | each sub-predicate lets every record through when its control is unset (blank keyword, no vehicle choice, box unchecked); when set: keyword found in lower-cased "name address", the vehicle flags the choice names, two different non-empty prices, or a 月租 / 上限 / 最高 marker in the prices |
| `Query.Filter` | assets/app.js:113-135 | the filter keeps only records of the input that match all four sub-predicates, and never more records than the input |
| `Query.FilterMembers` | assets/app.js:113-135 | exactly the records satisfying all four sub-predicates are kept, each with all its copies |
| `Query.FilterAppend` | assets/app.js:113-135 | the filter output is an order-preserving selection of its input |
| `Query.FilterIsSubFilters` | assets/app.js:134 | the filter equals the keyword, vehicle, differential-pricing and cap filters applied one after another |
| `Query.SubFiltersCommute` | assets/app.js:113-134 | any two sub-filters can be applied in either order |
| `Query.NoCriteriaKeepsAll` | assets/app.js:106-135 | an all-whitespace keyword, no vehicle choice and both boxes unchecked keep every record |
| `Query.DiffPricingExample` | assets/app.js:126-128 | weekday and weekend both 50元 fail the differential-pricing filter |
| `Query.KeywordIgnoresRecordCase` | assets/app.js:114-115 | lower-casing a record's name and address does not change whether the keyword matches |
| `Query.WeekdayPriceOrder` | assets/app.js:139-141 | the weekday comparator's "at most 0" is a total preorder (where texts without numbers fall is `Prices.PriceNotAfter`) |
| `Query.NameOrder` | assets/app.js:137-138 | the name comparator's "at most 0" is a total preorder for any collation that is one |
| `Query.Arrange` | assets/app.js:137-141 | the order after the filter is a permutation of the filtered records, and it is the filter order when the sort select is neither "name" nor "weekday" |
| `Query.ArrangedFilter` | assets/app.js:113-143 | what `applyFilters` stores is a permutation of the filtered records, holding exactly the matching records, sorted by the chosen order with ties in filter order |
| `Query.WeekdaySortExample` | assets/app.js:139-141 | weekday prices "100", "", "50" sort as 50, 100, "" |
| `Grouping.DistrictKey` | assets/app.js:165 | the group key is never empty |
| `Grouping.DistrictsInOrder` | assets/app.js:164-171 | the accumulator's keys: none exactly when there are no records, and never more keys than records |
| `Grouping.DistrictsInOrderPrefix` | assets/app.js:164-171 | keys stay in insertion order: the keys collected from a prefix of the records are a prefix of all the keys |
| `Grouping.FirstDistrictFirst` | assets/app.js:164-171 | the first record's district is the first key |
| `Grouping.DistrictsListed` | assets/app.js:164-171 | the accumulator's keys are distinct, and a district is a key exactly when it has records |
| `Grouping.CollectGroups` | assets/app.js:164-171 | the keys are the districts in order of first appearance; each key maps to exactly its records in filtered order |
| `Grouping.SortDistricts` | assets/app.js:173 | the district keys come out stably sorted by the collation |
| `Grouping.SortedDistricts` | assets/app.js:164-173 | the sorted key list is sorted, has no repetitions, names exactly the districts with records, and its groups together hold every record once |
| `Grouping.GroupedCountCovers` | assets/app.js:164-171 | groups of distinct districts covering all records have sizes summing to the record count |
| `Grouping.BuildSections` | assets/app.js:175-193 | one section per sorted key, in that order, each holding its key's group |
| `Grouping.GroupByDistrict` | assets/app.js:164-193 | sections in collation order with distinct districts; each holds exactly its district's records in filtered order; every record is in a section of its district; sizes sum to the record count |
| `Grouping.KeyOrderIsTotal` | assets/app.js:173 | the key comparator's "at most 0" is a total preorder for a collation |
| `Cards.MapLink` | assets/app.js:261 | never empty; the record's maps URL when non-empty, else the search prefix followed by the encoded "name address" |
| `Cards.Tags` | assets/app.js:230-238 | the tags are 汽車 then 機車 for the flags that are set, each once and no other; with neither flag the raw vehicle text is the only tag, or there is none when it is empty |
| `Cards.NormalizedTags` | assets/app.js:230-238 | on a normalized record a 汽車 / 機車 tag appears iff the vehicle text contains that word; otherwise the raw text is the only tag |
| `Cards.RatingLabelOf` | assets/app.js:280-286 | "not loaded" iff the rating is missing or zero; otherwise the rating, with the review count only when present and non-zero |
| `App.RecordList` | assets/app.js:308 | an array is used as is; an object gives its `items`, or [] without them; only `null` fails |
| `App.NormalizeAll` | assets/app.js:309 | one normalized record per raw record, in order, each named and with a district |
| `App.AppState.constructor` | assets/app.js:4-9 | the state starts with no records and a zero count, which is consistent |
| `App.AppState.ApplyFilters` | assets/app.js:105-145 | stores the filtered records arranged by the chosen sort; the loaded records and count are unchanged, so the count stays the number of loaded records |
| `App.AppState.Init` | assets/app.js:305-319 | on a usable payload, stores the normalized records and their count, then applies the filters; otherwise the state is unchanged; either way the count is the number of loaded records |
| `App.AppState.RenderList` | assets/app.js:155-173 | reports the number of loaded records as the total and the matching count; no sections exactly when nothing matches; otherwise the grouping above |

## Left out

- Loading: the fetch of the primary and fallback data files (`loadData`), the status messages and `state.dataSource` are I/O. Their outcome enters `App.AppState.Init` as a parameter, with `None` when both files fail.
- The DOM is not modelled: creating elements, `innerHTML`, event binding, the clipboard copy and its timer, and `createTag`. Only the data each card and section shows is modelled.
- `scripts/update_google_rating.py` is not part of this model. It only does HTTP calls, environment and file access, and sleeping.
- `localeCompare(…, "zh-Hant")` is a parameter `collate`. Only its "at most 0" being a total preorder is required (`IsCollation`), not ICU's actual order.
- `toLowerCase` lowers ASCII letters only. Unicode case mapping (full-width letters, length-changing mappings) is not modelled.
- `encodeURIComponent` is a parameter of `Cards.MapLink`.
- `Number(...)` is exact: a `real`. Rounding to a double of very long digit strings is not modelled.
- The number-to-text formatting of the rating and review count in `renderGoogleRating` is not modelled. `Cards.RatingLabelOf` returns the values shown.
- `String.prototype.replace` is modelled with a literal replacement: its `$` patterns are not.
- JavaScript strings are UTF-16. The model indexes Unicode scalar values, so a character outside the Basic Multilingual Plane counts as one character for `.` here and as two in JavaScript.
- Raw fields hold only strings (ratings are numbers). A JSON number, boolean or object where a string is expected, and a `null` entry in the record list, are not modelled. `normalizeItem` would throw or stringify on those.
- `Object.keys` lists integer-like keys first, in numeric order. The model lists districts in insertion order. Keys that `{}` inherits (`constructor`, `__proto__`) are not modelled either.
- `App.RecordList`: a payload that is a JSON string, number or boolean (where `data.items` is undefined, so the list is []) is not modelled, and neither is a truthy `items` that is not an array (where `list.map` throws and `init` takes its error path). `Payload` has only null, array and object.
- The record `id` is computed (`Records.NormalizeItem`) but nothing in the page uses it.

=== FILE: app.dfy ===
/**
 * The page state: `init` loads and normalizes the feed, `applyFilters`
 * recomputes the shown records, and `renderList` groups them.
 */
module App {
  import opened Wrappers
  import opened Records
  import opened Sorting
  import opened Query
  import opened Grouping

  /** The parsed data file: a bare array, an object that may carry `items`, or `null`. */
  datatype Payload = JsonArray(items: seq<RawItem>) | JsonObject(itemsField: Option<seq<RawItem>>) | JsonNull

  /**
   * `Array.isArray(data) ? data : data.items || []`. A present `items` array is
   * truthy even when empty; reading `items` of `null` throws, which is `None`.
   */
  function RecordList(data: Payload): (r: Option<seq<RawItem>>)
    ensures r.None? <==> data.JsonNull?
    ensures data.JsonArray? ==> r == Some(data.items)
    ensures data.JsonObject? && data.itemsField.Some? ==> r == data.itemsField
    ensures data.JsonObject? && data.itemsField.None? ==> r == Some([])
  {
    match data
    case JsonArray(items) => Some(items)
    case JsonObject(itemsField) => Some(itemsField.GetOr([]))
    case JsonNull => None
  }

  /** `list.map(normalizeItem)`: one canonical record per raw record, in order, each named and placed in a district. */
  function NormalizeAll(list: seq<RawItem>): (r: seq<Item>)
    ensures |r| == |list|
    ensures forall i :: 0 <= i < |r| ==> r[i] == NormalizeItem(list[i])
    ensures forall i :: 0 <= i < |r| ==> r[i].parkingName != "" && r[i].district != ""
  {
    seq(|list|, i requires 0 <= i < |list| => NormalizeItem(list[i]))
  }

  /** The page's `state` object (its `dataSource` label is left out). */
  class AppState {
    var rawItems: seq<Item>
    var filteredItems: seq<Item>
    var totalCount: nat

    /** The count shown as the total is the number of loaded records. */
    predicate Valid()
      reads this
    {
      totalCount == |rawItems|
    }

    constructor ()
      ensures Valid()
      ensures rawItems == [] && filteredItems == [] && totalCount == 0
    {
      rawItems, filteredItems, totalCount := [], [], 0;
    }

    /**
     * `applyFilters`: keep the matching records, sort them in place by the
     * chosen order, and store the result; the loaded records are untouched.
     */
    method ApplyFilters(c: Criteria, collate: (string, string) -> int)
      requires Valid()
      modifies this
      ensures Valid()
      ensures rawItems == old(rawItems) && totalCount == old(totalCount)
      ensures filteredItems == Arrange(Filter(rawItems, c), c.sort, collate)
    {
      var filtered := Filter(rawItems, c);
      var shown := new Item[|filtered|](i requires 0 <= i < |filtered| => filtered[i]);
      assert shown[..] == filtered;
      if c.sort == "name" {
        StableSort(shown, ByName(collate));
      } else if c.sort == "weekday" {
        StableSort(shown, ByWeekdayPrice);
      }
      filteredItems := shown[..];
    }

    /**
     * `init`: `fetched` is what `loadData` produced (`None` when both data
     * files failed). On success the records are normalized and counted and the
     * filters applied; on failure the state is left as it was.
     */
    method Init(fetched: Option<Payload>, c: Criteria, collate: (string, string) -> int) returns (loaded: bool)
      requires Valid()
      modifies this
      ensures Valid()
      ensures loaded <==> fetched.Some? && RecordList(fetched.value).Some?
      ensures loaded ==> rawItems == NormalizeAll(RecordList(fetched.value).value)
      ensures loaded ==> totalCount == |rawItems|
      ensures loaded ==> filteredItems == Arrange(Filter(rawItems, c), c.sort, collate)
      ensures !loaded ==> rawItems == old(rawItems) && filteredItems == old(filteredItems) && totalCount == old(totalCount)
    {
      if fetched.None? {
        return false;
      }
      var list := RecordList(fetched.value);
      if list.None? {
        return false;
      }
      rawItems := NormalizeAll(list.value);
      totalCount := |rawItems|;
      ApplyFilters(c, collate);
      loaded := true;
    }

    /**
     * The data `renderList` puts on the page: the total and matching counts and
     * the district sections (none exactly when nothing matches).
     */
    method RenderList(collate: (string, string) -> int) returns (total: nat, matching: nat, sections: seq<Section>)
      requires Valid() && IsCollation(collate)
      ensures total == totalCount == |rawItems| && matching == |filteredItems|
      ensures sections == [] <==> filteredItems == []
      ensures Districts(sections) == SortBy(DistrictsInOrder(filteredItems), KeyOrder(collate))
      ensures forall k :: 0 <= k < |sections| ==> sections[k].items == GroupOf(filteredItems, sections[k].district)
      ensures TotalSize(sections) == |filteredItems|
    {
      total, matching := totalCount, |filteredItems|;
      if filteredItems == [] {
        sections := [];
        return;
      }
      sections := GroupByDistrict(filteredItems, collate);
    }
  }
}

=== FILE: cards.dfy ===
/** The data decisions inside `renderCard`: the map link, the vehicle tags and the rating label. */
module Cards {
  import opened Wrappers
  import opened Text
  import opened Records

  const MapSearchPrefix := "https://www.google.com/maps/search/?api=1&query="

  /**
   * The map link: the record's own Google Maps URL when it has one, else a
   * search for "name address" (`encode` stands for `encodeURIComponent`).
   */
  function MapLink(item: Item, encode: string -> string): (r: string)
    ensures r != ""
    ensures item.googleMapsUrl != "" ==> r == item.googleMapsUrl
    ensures item.googleMapsUrl == "" ==>
              && |MapSearchPrefix| <= |r| && r[..|MapSearchPrefix|] == MapSearchPrefix
              && r[|MapSearchPrefix|..] == encode(item.parkingName + " " + item.address)
  {
    if item.googleMapsUrl != "" then item.googleMapsUrl
    else MapSearchPrefix + encode(item.parkingName + " " + item.address)
  }

  /** The tags on a card: 汽車 and 機車 by the flags, or the raw vehicle text when neither flag is set. */
  function Tags(item: Item): (r: seq<string>)
    ensures |r| <= 2
    ensures r == [] <==> !item.hasCar && !item.hasMoto && item.vehicleText == ""
    ensures item.hasCar ==> CarWord in r
    ensures item.hasMoto ==> MotorcycleWord in r
    ensures forall t :: t in r ==>
              || (t == CarWord && item.hasCar)
              || (t == MotorcycleWord && item.hasMoto)
              || (t == item.vehicleText && !item.hasCar && !item.hasMoto)
    ensures forall i, j :: 0 <= i < j < |r| ==> r[i] != r[j]
    ensures item.hasCar ==> r[0] == CarWord
    ensures !item.hasCar && !item.hasMoto && item.vehicleText != "" ==> r == [item.vehicleText]
  {
    (if item.hasCar then [CarWord] else [])
    + (if item.hasMoto then [MotorcycleWord] else [])
    + (if !item.hasCar && !item.hasMoto && item.vehicleText != "" then [item.vehicleText] else [])
  }

  /**
   * On a normalized record a tag reads 汽車 or 機車 exactly when the vehicle
   * text mentions it; a text mentioning neither is shown as it is.
   */
  lemma NormalizedTags(raw: RawItem)
    ensures var item := NormalizeItem(raw); var tags := Tags(item);
      && (CarWord in tags <==> Contains(item.vehicleText, CarWord))
      && (MotorcycleWord in tags <==> Contains(item.vehicleText, MotorcycleWord))
      && (!Contains(item.vehicleText, CarWord) && !Contains(item.vehicleText, MotorcycleWord)
          ==> tags == if item.vehicleText == "" then [] else [item.vehicleText])
  {
    var item := NormalizeItem(raw);
    if item.vehicleText == CarWord { assert OccursAt(item.vehicleText, CarWord, 0); }
    if item.vehicleText == MotorcycleWord { assert OccursAt(item.vehicleText, MotorcycleWord, 0); }
  }

  /** What the Google line of a card shows: stars with the rating and maybe a review count, or "not loaded". */
  datatype RatingLabel = Stars(rating: real, reviewCount: Option<int>) | NotLoaded

  /**
   * `renderGoogleRating`: a missing or zero rating (both falsy) shows "not
   * loaded"; the review count is shown only when present and non-zero.
   */
  function RatingLabelOf(item: Item): (r: RatingLabel)
    ensures r.NotLoaded? <==> item.googleRating.None? || item.googleRating.value == 0.0
    ensures r.Stars? ==> r.rating == item.googleRating.value
    ensures r.Stars? ==> (r.reviewCount.Some? <==> item.googleReviewCount.Some? && item.googleReviewCount.value != 0)
    ensures r.Stars? && r.reviewCount.Some? ==> r.reviewCount == item.googleReviewCount
  {
    match item.googleRating
    case Some(rating) =>
      if rating != 0.0 then
        Stars(rating, match item.googleReviewCount
                      case Some(n) => if n != 0 then Some(n) else None
                      case None => None)
      else NotLoaded
    case None => NotLoaded
  }
}

=== FILE: grouping.dfy ===
/**
 * The grouping in `renderList`: the filtered records are collected per
 * district in an accumulator object (keys in order of first appearance), and
 * the district keys are then sorted by collation.
 */
module Grouping {
  import opened Records
  import opened Subsequences
  import opened Sorting
  import opened Query

  /** `item.district || "其他"`. */
  function DistrictKey(item: Item): (k: string)
    ensures k != ""
  {
    if item.district != "" then item.district else OtherDistrict
  }

  function InDistrict(k: string): Item -> bool {
    x => DistrictKey(x) == k
  }

  /** The records of district `k`, in their filtered order. */
  function GroupOf(items: seq<Item>, k: string): seq<Item> {
    Keep(items, InDistrict(k))
  }

  /** The accumulator's keys in insertion order: each district where it first appears. */
  function DistrictsInOrder(items: seq<Item>): (r: seq<string>)
    ensures |r| <= |items|
    ensures items == [] <==> r == []
  {
    if items == [] then []
    else
      var seen := DistrictsInOrder(items[..|items| - 1]);
      var k := DistrictKey(items[|items| - 1]);
      if k in seen then seen else seen + [k]
  }

  /**
   * Insertion order: the keys collected from a prefix of the records are a
   * prefix of all the keys; a later record never moves an earlier key.
   */
  lemma {:induction false} DistrictsInOrderPrefix(items: seq<Item>, i: nat)
    requires i <= |items|
    ensures var p := DistrictsInOrder(items[..i]); var q := DistrictsInOrder(items);
      |p| <= |q| && q[..|p|] == p
  {
    if i == |items| {
      assert items[..i] == items;
    } else {
      var init := items[..|items| - 1];
      assert items[..i] == init[..i];
      DistrictsInOrderPrefix(init, i);
    }
  }

  /** The first record's district is the first key. */
  lemma FirstDistrictFirst(items: seq<Item>)
    requires items != []
    ensures DistrictsInOrder(items)[0] == DistrictKey(items[0])
  {
    DistrictsInOrderPrefix(items, 1);
    assert items[..1][..0] == [];
  }

  predicate Distinct(s: seq<string>) {
    forall i, j :: 0 <= i < j < |s| ==> s[i] != s[j]
  }

  /** A district is listed exactly when it has records, and none is listed twice. */
  lemma {:induction false} DistrictsListed(items: seq<Item>)
    ensures Distinct(DistrictsInOrder(items))
    ensures forall k :: k in DistrictsInOrder(items) <==> GroupOf(items, k) != []
  {
    if items != [] {
      var init, last := items[..|items| - 1], items[|items| - 1];
      DistrictsListed(init);
      forall k ensures k in DistrictsInOrder(items) <==> GroupOf(items, k) != [] {
        assert GroupOf(items, k) == GroupOf(init, k) + if DistrictKey(last) == k then [last] else [];
      }
    }
  }

  /** The district order of `renderList`: `localeCompare`'s "at most 0" on keys. */
  function KeyOrder(collate: (string, string) -> int): (string, string) -> bool {
    (a: string, b: string) => collate(a, b) <= 0
  }

  lemma KeyOrderIsTotal(collate: (string, string) -> int)
    requires IsCollation(collate)
    ensures TotalPreorder(KeyOrder(collate))
  {
    var le := KeyOrder(collate);
    forall a: string, b: string ensures le(a, b) || le(b, a) {
      assert collate(a, b) <= 0 || collate(b, a) <= 0;
    }
    forall a: string, b: string, d: string | le(a, b) && le(b, d) ensures le(a, d) {
      assert collate(a, b) <= 0 && collate(b, d) <= 0;
    }
  }

  /** One rendered district section. */
  datatype Section = Section(district: string, items: seq<Item>)

  function Districts(sections: seq<Section>): (r: seq<string>)
    ensures |r| == |sections|
    ensures forall k :: 0 <= k < |r| ==> r[k] == sections[k].district
  {
    if sections == [] then [] else Districts(sections[..|sections| - 1]) + [sections[|sections| - 1].district]
  }

  /** The number of records shown over all sections. */
  function TotalSize(sections: seq<Section>): nat {
    if sections == [] then 0 else TotalSize(sections[..|sections| - 1]) + |sections[|sections| - 1].items|
  }

  /** The number of records in the groups of the districts `ks`. */
  function GroupedCount(ks: seq<string>, items: seq<Item>): nat {
    if ks == [] then 0 else GroupedCount(ks[..|ks| - 1], items) + |GroupOf(items, ks[|ks| - 1])|
  }

  /** How often `k` is listed in `ks`. */
  function Occurrences(ks: seq<string>, k: string): nat {
    if ks == [] then 0 else Occurrences(ks[..|ks| - 1], k) + if ks[|ks| - 1] == k then 1 else 0
  }

  lemma {:induction false} OccurrencesInDistinct(ks: seq<string>, k: string)
    requires Distinct(ks)
    ensures Occurrences(ks, k) == if k in ks then 1 else 0
  {
    if ks != [] {
      var init := ks[..|ks| - 1];
      OccurrencesInDistinct(init, k);
      assert ks == init + [ks[|ks| - 1]];
    }
  }

  lemma {:induction false} GroupedCountEmpty(ks: seq<string>)
    ensures GroupedCount(ks, []) == 0
  {
    if ks != [] {
      GroupedCountEmpty(ks[..|ks| - 1]);
    }
  }

  /** One more record adds one to the count of every listing of its district. */
  lemma {:induction false} GroupedCountSnoc(ks: seq<string>, items: seq<Item>, x: Item)
    ensures GroupedCount(ks, items + [x]) == GroupedCount(ks, items) + Occurrences(ks, DistrictKey(x))
  {
    if ks != [] {
      var init, k := ks[..|ks| - 1], ks[|ks| - 1];
      GroupedCountSnoc(init, items, x);
      KeepAppend(items, [x], InDistrict(k));
      assert [x][..0] == [];
    }
  }

  /** Groups of distinct districts that cover every record hold, together, every record once. */
  lemma {:induction false} GroupedCountCovers(ks: seq<string>, items: seq<Item>)
    requires Distinct(ks)
    requires forall x :: x in items ==> DistrictKey(x) in ks
    ensures GroupedCount(ks, items) == |items|
  {
    if items == [] {
      GroupedCountEmpty(ks);
    } else {
      var init, last := items[..|items| - 1], items[|items| - 1];
      assert items == init + [last];
      GroupedCountCovers(ks, init);
      GroupedCountSnoc(ks, init, last);
      OccurrencesInDistinct(ks, DistrictKey(last));
    }
  }

  lemma GroupOfSnoc(items: seq<Item>, i: nat, k: string)
    requires i < |items|
    ensures GroupOf(items[..i + 1], k) == GroupOf(items[..i], k) + if DistrictKey(items[i]) == k then [items[i]] else []
  {
    assert items[..i + 1][..i] == items[..i];
  }

  /** The `reduce` of `renderList`: the accumulator object and its keys in insertion order. */
  method CollectGroups(items: seq<Item>) returns (acc: map<string, seq<Item>>, keys: seq<string>)
    ensures keys == DistrictsInOrder(items)
    ensures forall k :: k in acc <==> k in keys
    ensures forall k :: k in acc ==> acc[k] == GroupOf(items, k)
  {
    acc, keys := map[], [];
    var i := 0;
    while i < |items|
      invariant 0 <= i <= |items|
      invariant keys == DistrictsInOrder(items[..i])
      invariant forall k :: k in acc <==> k in keys
      invariant forall k :: k in acc ==> acc[k] == GroupOf(items[..i], k)
    {
      var item := items[i];
      var key := DistrictKey(item);
      DistrictsListed(items[..i]);
      assert items[..i + 1][..i] == items[..i];
      forall k ensures GroupOf(items[..i + 1], k) == GroupOf(items[..i], k) + if key == k then [item] else [] {
        GroupOfSnoc(items, i, k);
      }
      if key !in acc {
        acc := acc[key := []];
        keys := keys + [key];
      }
      acc := acc[key := acc[key] + [item]];
      i := i + 1;
    }
    assert items[..i] == items;
  }

  /** `Object.keys(grouped).sort(...)`: the district keys in collation order, ties kept in insertion order. */
  method SortDistricts(keys: seq<string>, collate: (string, string) -> int) returns (sorted: seq<string>)
    ensures sorted == SortBy(keys, KeyOrder(collate))
  {
    var order := new string[|keys|](j requires 0 <= j < |keys| => keys[j]);
    assert order[..] == keys;
    StableSort(order, KeyOrder(collate));
    sorted := order[..];
  }

  /** The sorted district list names every district with records once, in collation order. */
  lemma SortedDistricts(items: seq<Item>, collate: (string, string) -> int)
    requires IsCollation(collate)
    ensures var sorted := SortBy(DistrictsInOrder(items), KeyOrder(collate));
      && Sorted(sorted, KeyOrder(collate))
      && Distinct(sorted)
      && (forall k :: k in sorted <==> k in DistrictsInOrder(items))
      && (forall k :: k in sorted <==> GroupOf(items, k) != [])
      && (forall x :: x in items ==> DistrictKey(x) in sorted)
      && GroupedCount(sorted, items) == |items|
  {
    var keys := DistrictsInOrder(items);
    var sorted := SortBy(keys, KeyOrder(collate));
    DistrictsListed(items);
    SortByMembers(keys, KeyOrder(collate));
    SortByDistinct(keys, KeyOrder(collate));
    KeyOrderIsTotal(collate);
    SortBySorted(keys, KeyOrder(collate));
    forall x | x in items ensures DistrictKey(x) in sorted {
      KeepMembers(items, InDistrict(DistrictKey(x)));
    }
    GroupedCountCovers(sorted, items);
  }

  /** The `forEach` over the sorted districts: one section per key, holding that key's group. */
  method BuildSections(sorted: seq<string>, acc: map<string, seq<Item>>, items: seq<Item>) returns (sections: seq<Section>)
    requires forall k :: k in sorted ==> k in acc && acc[k] == GroupOf(items, k)
    ensures Districts(sections) == sorted
    ensures forall k :: 0 <= k < |sections| ==> sections[k].items == GroupOf(items, sections[k].district)
    ensures TotalSize(sections) == GroupedCount(sorted, items)
  {
    sections := [];
    var j := 0;
    while j < |sorted|
      invariant 0 <= j <= |sorted|
      invariant Districts(sections) == sorted[..j]
      invariant forall k :: 0 <= k < |sections| ==> sections[k].items == GroupOf(items, sections[k].district)
      invariant TotalSize(sections) == GroupedCount(sorted[..j], items)
    {
      assert sorted[..j + 1][..j] == sorted[..j];
      sections := sections + [Section(sorted[j], acc[sorted[j]])];
      assert sections[..|sections| - 1] + [sections[|sections| - 1]] == sections;
      j := j + 1;
    }
    assert sorted[..j] == sorted;
  }

  /**
   * The grouping of `renderList`: one section per district that has records,
   * in collation order with ties in order of first appearance; each section
   * holds exactly its district's records in their filtered order; no record
   * is lost or repeated.
   */
  method GroupByDistrict(items: seq<Item>, collate: (string, string) -> int) returns (sections: seq<Section>)
    requires IsCollation(collate)
    ensures Districts(sections) == SortBy(DistrictsInOrder(items), KeyOrder(collate))
    ensures Sorted(Districts(sections), KeyOrder(collate))
    ensures Distinct(Districts(sections))
    ensures forall k :: 0 <= k < |sections| ==> sections[k].items == GroupOf(items, sections[k].district)
    ensures forall x :: x in items ==> exists k :: 0 <= k < |sections| && sections[k].district == DistrictKey(x)
    ensures TotalSize(sections) == |items|
  {
    var acc, keys := CollectGroups(items);
    var sorted := SortDistricts(keys, collate);
    SortedDistricts(items, collate);
    assert forall k :: k in sorted ==> k in keys;
    sections := BuildSections(sorted, acc, items);
    forall x | x in items ensures exists k :: 0 <= k < |sections| && sections[k].district == DistrictKey(x) {
      var k :| 0 <= k < |sorted| && sorted[k] == DistrictKey(x);
      assert Districts(sections)[k] == sorted[k];
    }
  }
}

=== FILE: normalize_facts.dfy ===
/** What `normalizeItem` promises about names, districts and vehicle flags. */
module NormalizeFacts {
  import opened Wrappers
  import opened Text
  import opened Records

  /** A string field that JavaScript `||` skips: absent or "". */
  predicate Blank(f: Field) {
    f.None? || f.value == ""
  }

  /** The lot name is `parking_name`, else `name`, else 未命名停車場; it is never empty. */
  lemma NamePrecedence(raw: RawItem)
    ensures var n := NormalizeItem(raw).parkingName;
      && n != ""
      && (raw.parkingName.Some? && raw.parkingName.value != "" ==> n == raw.parkingName.value)
      && ((raw.parkingName.None? || raw.parkingName.value == "") && raw.name.Some? && raw.name.value != ""
          ==> n == raw.name.value)
      && ((raw.parkingName.None? || raw.parkingName.value == "") && (raw.name.None? || raw.name.value == "")
          ==> n == UnnamedLot)
  {
  }

  /**
   * Without a declared district, the district is the leftmost three-character
   * window of the address ending in 區 (two non-line-terminator characters
   * before it), and 其他 exactly when the address has no such window.
   */
  lemma DistrictFromAddress(raw: RawItem)
    requires raw.district.None? || raw.district.value == ""
    ensures var a := AddressOf(raw); var d := NormalizeItem(raw).district;
      && (d == OtherDistrict <==> forall i: nat :: !DistrictAt(a, i))
      && (d != OtherDistrict ==>
            && |d| == 3 && d[2] == DistrictSuffix
            && exists i: nat :: DistrictAt(a, i) && d == a[i..i + 3]
                                && forall j: nat :: j < i ==> !DistrictAt(a, j))
  {
    var a := AddressOf(raw);
    match MatchDistrict(a)
    case None =>
    case Some(m) =>
      assert m[2] == DistrictSuffix;
      assert m != OtherDistrict by { assert |OtherDistrict| == 2; }
  }

  /** A non-empty declared district is kept as it is, whatever the address says. */
  lemma DeclaredDistrictWins(raw: RawItem)
    requires raw.district.Some? && raw.district.value != ""
    ensures NormalizeItem(raw).district == raw.district.value
  {
  }

  function AddressOnly(address: string): RawItem {
    RawItem(None, None, None, Some(address), None, None, None, None, None, None, None, None)
  }

  /** 高雄市苓雅區四維三路2號 lies in 苓雅區. */
  lemma LingyaAddress()
    ensures NormalizeItem(AddressOnly("高雄市苓雅區四維三路2號")).district == "苓雅區"
  {
    var a := "高雄市苓雅區四維三路2號";
    assert !DistrictAt(a, 0) && !DistrictAt(a, 1) && !DistrictAt(a, 2) && DistrictAt(a, 3);
    assert DistrictIndexFrom(a, 0) == Some(3);
  }

  /**
   * The pattern takes only the two characters before 區, so the four-character
   * district name 那瑪夏區 comes out as 瑪夏區.
   */
  lemma FourCharacterDistrictIsCut()
    ensures NormalizeItem(AddressOnly("高雄市那瑪夏區")).district == "瑪夏區"
  {
    var a := "高雄市那瑪夏區";
    assert !DistrictAt(a, 0) && !DistrictAt(a, 1) && !DistrictAt(a, 2) && !DistrictAt(a, 3) && DistrictAt(a, 4);
    assert DistrictIndexFrom(a, 0) == Some(4);
  }

  /** A record with neither a district nor an address is filed under 其他. */
  lemma NoAddressIsOther(raw: RawItem)
    requires raw.district.None? || raw.district.value == ""
    requires AddressOf(raw) == ""
    ensures NormalizeItem(raw).district == OtherDistrict
  {
  }

  /**
   * The address is `address`, else `address_text`, else "" (an empty string
   * falls through like a missing one).
   */
  lemma AddressPrecedence(raw: RawItem)
    ensures var a := NormalizeItem(raw).address;
      && (raw.address.Some? && raw.address.value != "" ==> a == raw.address.value)
      && ((raw.address.None? || raw.address.value == "") && raw.addressText.Some? && raw.addressText.value != ""
          ==> a == raw.addressText.value)
      && ((raw.address.None? || raw.address.value == "") && (raw.addressText.None? || raw.addressText.value == "")
          ==> a == "")
  {
  }

  /**
   * The vehicle text is `vehicle_types`, else `vehicleType`, else "", and the
   * two flags are substring tests on that text.
   */
  lemma VehiclePrecedence(raw: RawItem)
    ensures var r := NormalizeItem(raw);
      && (raw.vehicleTypes.Some? && raw.vehicleTypes.value != "" ==> r.vehicleText == raw.vehicleTypes.value)
      && ((raw.vehicleTypes.None? || raw.vehicleTypes.value == "") && raw.vehicleType.Some? && raw.vehicleType.value != ""
          ==> r.vehicleText == raw.vehicleType.value)
      && ((raw.vehicleTypes.None? || raw.vehicleTypes.value == "") && (raw.vehicleType.None? || raw.vehicleType.value == "")
          ==> r.vehicleText == "" && !r.hasCar && !r.hasMoto)
      && (r.hasCar <==> Contains(r.vehicleText, CarWord))
      && (r.hasMoto <==> Contains(r.vehicleText, MotorcycleWord))
  {
  }

  /** `vehicle_types` takes precedence over `vehicleType`; each flag is a substring test on the chosen text. */
  lemma VehicleFlagsExample()
    ensures var r := NormalizeItem(RawItem(None, None, None, None, None, None,
                                           Some("汽車、機車"), Some("機車"), None, None, None, None));
            r.hasCar && r.hasMoto
    ensures var r := NormalizeItem(RawItem(None, None, None, None, None, None,
                                           Some(""), Some("機車"), None, None, None, None));
            !r.hasCar && r.hasMoto
  {
    assert OccursAt("汽車、機車", CarWord, 0);
    assert OccursAt("汽車、機車", MotorcycleWord, 3);
    assert OccursAt("機車", MotorcycleWord, 0);
    assert !Contains("機車", CarWord) by {
      forall i: nat | i <= 2 ensures !OccursAt("機車", CarWord, i) {
        if i == 0 { assert "機車"[0] != CarWord[0]; }
      }
    }
  }

  /** The id is `id`, else `parking_name` (or "") joined to the address with "-". */
  lemma IdFallback(raw: RawItem)
    ensures var r := NormalizeItem(raw);
      && (!Blank(raw.id) ==> r.id == raw.id.value)
      && (Blank(raw.id) && !Blank(raw.parkingName) ==> r.id == raw.parkingName.value + "-" + r.address)
      && (Blank(raw.id) && Blank(raw.parkingName) ==> r.id == "-" + r.address)
  {
  }

  /**
   * The weekday price is `pricing.weekday`, else `pricing.weekday_fee`, else "";
   * the weekend price likewise; without a `pricing` object both are "".
   */
  lemma PricingPrecedence(raw: RawItem)
    ensures var r := NormalizeItem(raw);
      && (raw.pricing.None? ==> r.pricingWeekday == "" && r.pricingWeekend == "")
      && (raw.pricing.Some? ==>
            var p := raw.pricing.value;
            && (!Blank(p.weekday) ==> r.pricingWeekday == p.weekday.value)
            && (Blank(p.weekday) && !Blank(p.weekdayFee) ==> r.pricingWeekday == p.weekdayFee.value)
            && (Blank(p.weekday) && Blank(p.weekdayFee) ==> r.pricingWeekday == "")
            && (!Blank(p.weekend) ==> r.pricingWeekend == p.weekend.value)
            && (Blank(p.weekend) && !Blank(p.weekendFee) ==> r.pricingWeekend == p.weekendFee.value)
            && (Blank(p.weekend) && Blank(p.weekendFee) ==> r.pricingWeekend == ""))
  {
  }

  /**
   * Rating and review count are passed through unchanged (absent without a
   * `google` object); the maps URL is `google.maps_url`, else `google.url`, else "".
   */
  lemma GoogleFields(raw: RawItem)
    ensures var r := NormalizeItem(raw);
      && (raw.google.None? ==> r.googleRating.None? && r.googleReviewCount.None? && r.googleMapsUrl == "")
      && (raw.google.Some? ==>
            var g := raw.google.value;
            && r.googleRating == g.rating
            && r.googleReviewCount == g.reviewCount
            && (!Blank(g.mapsUrl) ==> r.googleMapsUrl == g.mapsUrl.value)
            && (Blank(g.mapsUrl) && !Blank(g.url) ==> r.googleMapsUrl == g.url.value)
            && (Blank(g.mapsUrl) && Blank(g.url) ==> r.googleMapsUrl == ""))
  {
  }

  /**
   * The thumbnail sources: the direct URL, photo reference and resource name
   * come from `thumbnail.place_photo`, the street-view URL from
   * `thumbnail.street_view`, and the two templates from the templates object
   * `TemplatesOf` picks; every missing or empty leaf gives "".
   */
  lemma ThumbnailFields(raw: RawItem)
    ensures var t := NormalizeItem(raw).thumbnail;
      var pp := if raw.thumbnail.Some? then raw.thumbnail.value.placePhoto else None;
      var sv := if raw.thumbnail.Some? then raw.thumbnail.value.streetView else None;
      var tpl := TemplatesOf(raw);
      && t.url == (if pp.Some? then Or(pp.value.url, "") else "")
      && t.photoReference == (if pp.Some? then Or(pp.value.photoReference, "") else "")
      && t.photoResourceName == (if pp.Some? then Or(pp.value.photoResourceName, "") else "")
      && t.classicTemplate == Or(tpl.classicPhotoreferenceUrlTemplate, "")
      && t.newTemplate == Or(tpl.newPhotoResourceUrlTemplate, "")
      && t.streetViewUrl == (if sv.Some? then Or(sv.value.url, "") else "")
  {
  }
}

=== FILE: prices.dfy ===
/**
 * `getPriceNumber`: the first match of `\d+(?:\.\d+)?` in a free-text price,
 * read as a number; no match stands for +Infinity (here `None`).
 */
module Prices {
  import opened Wrappers

  /** `\d` matches ASCII digits only. */
  predicate IsDigit(c: char) {
    '0' <= c <= '9'
  }

  predicate AllDigits(s: string) {
    forall i :: 0 <= i < |s| ==> IsDigit(s[i])
  }

  predicate NoDigit(s: string) {
    forall i :: 0 <= i < |s| ==> !IsDigit(s[i])
  }

  /** A match of `\d+(?:\.\d+)?`: the whole part and, when the optional group matched, the fraction digits. */
  datatype Numeral = Numeral(whole: string, fraction: Option<string>)

  predicate WellFormed(n: Numeral) {
    n.whole != "" && AllDigits(n.whole)
    && (n.fraction.Some? ==> n.fraction.value != "" && AllDigits(n.fraction.value))
  }

  /** The text the numeral was matched from. */
  function Spelling(n: Numeral): string {
    n.whole + if n.fraction.Some? then "." + n.fraction.value else ""
  }

  /** The index of the first digit at or after `from`. */
  function FirstDigitFrom(s: string, from: nat): (r: Option<nat>)
    requires from <= |s|
    ensures r.Some? ==> from <= r.value < |s| && IsDigit(s[r.value])
    ensures forall i :: from <= i < |s| && (r.None? || i < r.value) ==> !IsDigit(s[i])
    decreases |s| - from
  {
    if from == |s| then None
    else if IsDigit(s[from]) then Some(from)
    else FirstDigitFrom(s, from + 1)
  }

  /** The end of the longest run of digits that starts at `from` (greedy `\d+`). */
  function DigitRunEnd(s: string, from: nat): (e: nat)
    requires from <= |s|
    ensures from <= e <= |s|
    ensures AllDigits(s[from..e])
    ensures e == |s| || !IsDigit(s[e])
    decreases |s| - from
  {
    if from < |s| && IsDigit(s[from]) then
      var e := DigitRunEnd(s, from + 1);
      assert s[from..e] == [s[from]] + s[from + 1..e];
      e
    else from
  }

  /** Where a numeral spelled at `start` ends. */
  function EndOf(start: nat, n: Numeral): nat {
    start + |Spelling(n)|
  }

  /**
   * `text.match(/\d+(?:\.\d+)?/)`: the leftmost match with its start index.
   * It starts at the first digit, its whole part cannot be extended, and the
   * fraction is taken exactly when a dot followed by a digit comes next.
   */
  function FirstNumeral(text: string): (r: Option<(nat, Numeral)>)
    ensures r.None? <==> NoDigit(text)
    ensures r.Some? ==>
      var (start, n) := r.value;
      var end := EndOf(start, n);
      && WellFormed(n)
      && end <= |text| && text[start..end] == Spelling(n)
      && NoDigit(text[..start])
      && (end == |text| || !IsDigit(text[end]))
      && (n.fraction.None? ==> !(end + 1 < |text| && text[end] == '.' && IsDigit(text[end + 1])))
  {
    match FirstDigitFrom(text, 0)
    case None => None
    case Some(start) =>
      var e := DigitRunEnd(text, start);
      var whole := text[start..e];
      if e + 1 < |text| && text[e] == '.' && IsDigit(text[e + 1]) then
        var f := DigitRunEnd(text, e + 1);
        var n := Numeral(whole, Some(text[e + 1..f]));
        SplitAtDot(text, start, e, f);
        assert EndOf(start, n) == f;
        Some((start, n))
      else
        assert EndOf(start, Numeral(whole, None)) == e;
        Some((start, Numeral(whole, None)))
  }

  /** A slice that has a dot at `e` is the part before it, the dot, and the part after it. */
  lemma SplitAtDot(text: string, start: nat, e: nat, f: nat)
    requires start <= e < f <= |text| && text[e] == '.'
    ensures text[start..f] == text[start..e] + "." + text[e + 1..f]
  {
    assert text[start..f] == text[start..e] + text[e..e + 1] + text[e + 1..f];
    assert text[e..e + 1] == ".";
  }

  function DigitValue(c: char): nat
    requires IsDigit(c)
  {
    c as int - '0' as int
  }

  /** The integer a run of decimal digits denotes, read from the left. */
  function WholeValue(ds: string): nat
    requires AllDigits(ds)
  {
    if ds == [] then 0 else 10 * WholeValue(ds[..|ds| - 1]) + DigitValue(ds[|ds| - 1])
  }

  /** 10 to the power `n`. */
  function Pow10(n: nat): (p: nat)
    ensures p >= 1
  {
    if n == 0 then 1 else 10 * Pow10(n - 1)
  }

  /** `n` digits denote less than 10 to the `n`. */
  lemma {:induction false} WholeValueBelow(ds: string)
    requires AllDigits(ds)
    ensures WholeValue(ds) < Pow10(|ds|)
  {
    if ds != [] {
      WholeValueBelow(ds[..|ds| - 1]);
    }
  }

  /** The value of the digits after a decimal point: `.ds` is `ds` over 10 to the `|ds|`. */
  function FractionValue(ds: string): (v: real)
    requires AllDigits(ds)
    ensures 0.0 <= v < 1.0
  {
    WholeValueBelow(ds);
    ProperQuotient(WholeValue(ds), Pow10(|ds|));
    WholeValue(ds) as real / Pow10(|ds|) as real
  }

  lemma ProperQuotient(w: nat, p: nat)
    requires w < p
    ensures 0.0 <= w as real / p as real < 1.0
  {
  }

  /** `Number(spelling)`, computed exactly. */
  function NumeralValue(n: Numeral): (v: real)
    requires WellFormed(n)
    ensures v >= 0.0
  {
    WholeValue(n.whole) as real + if n.fraction.Some? then FractionValue(n.fraction.value) else 0.0
  }

  /** Appending digits `b` to `a` shifts the value of `a` left by `|b|` decimal places. */
  lemma {:induction false} WholeValueAppend(a: string, b: string)
    requires AllDigits(a) && AllDigits(b)
    ensures AllDigits(a + b)
    ensures WholeValue(a + b) == WholeValue(a) * Pow10(|b|) + WholeValue(b)
    decreases |b|
  {
    assert forall i :: 0 <= i < |a + b| ==> (a + b)[i] == if i < |a| then a[i] else b[i - |a|];
    if b == [] {
      assert a + b == a;
    } else {
      var init, d := b[..|b| - 1], DigitValue(b[|b| - 1]);
      WholeValueAppend(a, init);
      assert (a + b)[..|a + b| - 1] == a + init;
      assert WholeValue(a + b) == 10 * WholeValue(a + init) + d;
      ShiftDigit(WholeValue(a), Pow10(|init|), WholeValue(init), d);
    }
  }

  lemma ShiftDigit(w: int, p: int, v: int, d: int)
    ensures 10 * (w * p + v) + d == w * (10 * p) + (10 * v + d)
  {
  }

  /**
   * `Number(spelling)` is decimal notation: a numeral with whole digits `w`
   * and fraction digits `f` is the value of all its digits read as one
   * integer, divided by 10 to the `|f|`.
   */
  lemma NumeralDecimal(w: string, f: string)
    requires WellFormed(Numeral(w, Some(f)))
    ensures AllDigits(w + f)
    ensures NumeralValue(Numeral(w, Some(f))) == WholeValue(w + f) as real / Pow10(|f|) as real
  {
    WholeValueAppend(w, f);
    SplitQuotient(WholeValue(w + f), WholeValue(w), WholeValue(f), Pow10(|f|));
  }

  /** Without a fraction, a numeral is the value of its whole digits. */
  lemma NumeralWhole(w: string)
    requires WellFormed(Numeral(w, None))
    ensures NumeralValue(Numeral(w, None)) == WholeValue(w) as real
  {
  }

  /** `u = w * p + v` gives `u / p = w + v / p`. */
  lemma SplitQuotient(u: int, w: int, v: int, p: int)
    requires p >= 1 && u == w * p + v
    ensures u as real / p as real == w as real + v as real / p as real
  {
    assert (w * p) as real == w as real * p as real;
  }

  /**
   * `getPriceNumber`: `None` is +Infinity, returned exactly when the text has
   * no digit; otherwise the value of the leftmost numeral.
   */
  function PriceNumber(text: string): (r: Option<real>)
    ensures r.None? <==> NoDigit(text)
    ensures r.Some? ==> r.value >= 0.0
    ensures r.Some? ==> FirstNumeral(text).Some? && r.value == NumeralValue(FirstNumeral(text).value.1)
  {
    match FirstNumeral(text)
    case None => None
    case Some((_, n)) => Some(NumeralValue(n))
  }

  /**
   * Whether `a - b` for two `getPriceNumber` results is at most 0, read the way
   * `Array.prototype.sort` reads a comparator: Infinity - Infinity is NaN, which
   * sort treats as 0, so two texts without numbers tie.
   */
  predicate PriceNotAfter(x: Option<real>, y: Option<real>): (r: bool)
    ensures x.Some? && y.Some? ==> (r <==> x.value <= y.value)
    ensures y.None? ==> r
    ensures x.None? && y.Some? ==> !r
  {
    match (x, y)
    case (Some(a), Some(b)) => a - b <= 0.0
    case (Some(_), None) => true
    case (None, Some(_)) => false
    case (None, None) => true
  }

  /** Prices that sort as 50, 100, then the empty text (+Infinity). */
  lemma PlainPrices()
    ensures PriceNumber("50") == Some(50.0)
    ensures PriceNumber("100") == Some(100.0)
    ensures PriceNumber("") == None
  {
    assert DigitRunEnd("50", 0) == 2;
    assert "50"[0..2] == "50";
    assert WholeValue("50") == 50 by { assert "50"[..1] == "5"; }
    assert DigitRunEnd("100", 0) == 3;
    assert "100"[0..3] == "100";
    assert WholeValue("100") == 100 by { assert "100"[..2] == "10"; assert "10"[..1] == "1"; }
  }

  /** The first number is taken wherever it sits; later numbers are ignored. */
  lemma FirstPriceInText()
    ensures PriceNumber("每小時30元，上限200元") == Some(30.0)
  {
    var a := "每小時30元，上限200元";
    assert FirstDigitFrom(a, 0) == Some(3);
    assert DigitRunEnd(a, 3) == 5;
    assert a[3..5] == "30";
    assert WholeValue("30") == 30 by { assert "30"[..1] == "3"; }
  }

  /** A decimal fraction is kept, its digits read from the left. */
  lemma FractionalPrice()
    ensures PriceNumber("12.5元") == Some(12.5)
  {
    var b := "12.5元";
    assert DigitRunEnd(b, 0) == 2;
    assert DigitRunEnd(b, 3) == 4;
    assert b[0..2] == "12" && b[3..4] == "5";
    assert WholeValue("12") == 12 by { assert "12"[..1] == "1"; }
    assert WholeValue("5") == 5;
  }

  /** Fraction digits are read as one number over a power of ten, not digit by digit. */
  lemma TwoDigitFraction()
    ensures PriceNumber("12.25元") == Some(12.25)
  {
    var c := "12.25元";
    assert DigitRunEnd(c, 0) == 2;
    assert DigitRunEnd(c, 3) == 5;
    assert c[0..2] == "12" && c[3..5] == "25";
    assert WholeValue("12") == 12 by { assert "12"[..1] == "1"; }
    assert WholeValue("25") == 25 by { assert "25"[..1] == "2"; }
    assert Pow10(2) == 100;
  }
}

=== FILE: query.dfy ===
/**
 * `applyFilters`: the four independent sub-predicates, the filter they make
 * together, and the two sort orders.
 */
module Query {
  import opened Wrappers
  import opened Text
  import opened Records
  import opened Prices
  import opened Sorting
  import opened Subsequences

  /** The control values `applyFilters` reads: the search box, the vehicle select, two check boxes and the sort select. */
  datatype Criteria = Criteria(keyword: string, vehicle: string, diffPricing: bool, hasCap: bool, sort: string)

  /** The four sub-predicates of the filter. */
  datatype Check = Keyword | Vehicle | Diff | Cap

  const CapMarkers := ["月租", "上限", "最高"]

  /** The text searched by the keyword: lower-cased "name address". */
  function Haystack(item: Item): string {
    ToLower(item.parkingName + " " + item.address)
  }

  /** The trimmed, lower-cased search box value. */
  function KeywordOf(c: Criteria): string {
    ToLower(Trim(c.keyword))
  }

  predicate HasCapMarker(text: string) {
    Contains(text, CapMarkers[0]) || Contains(text, CapMarkers[1]) || Contains(text, CapMarkers[2])
  }

  /**
   * Whether `item` passes one sub-predicate under criteria `c`. A control that
   * is not set lets every record through; a set one tests what it names.
   */
  predicate Passes(item: Item, c: Criteria, check: Check): (r: bool)
    ensures check == Keyword && AllWhitespace(c.keyword) ==> r
    ensures check == Keyword && !AllWhitespace(c.keyword) ==> (r <==> Contains(Haystack(item), KeywordOf(c)))
    ensures check == Vehicle && c.vehicle == "car" ==> (r <==> item.hasCar)
    ensures check == Vehicle && c.vehicle == "moto" ==> (r <==> item.hasMoto)
    ensures check == Vehicle && c.vehicle == "both" ==> (r <==> item.hasCar && item.hasMoto)
    ensures check == Vehicle && c.vehicle != "car" && c.vehicle != "moto" && c.vehicle != "both" ==> r
    ensures check == Diff && !c.diffPricing ==> r
    ensures check == Diff && c.diffPricing ==>
              (r <==> item.pricingWeekday != "" && item.pricingWeekend != "" && item.pricingWeekday != item.pricingWeekend)
    ensures check == Cap && !c.hasCap ==> r
    ensures check == Cap && c.hasCap ==>
              (r <==> exists i :: 0 <= i < |CapMarkers| && Contains(item.pricingWeekday + item.pricingWeekend, CapMarkers[i]))
  {
    match check
    case Keyword => KeywordOf(c) == "" || Contains(Haystack(item), KeywordOf(c))
    case Vehicle =>
      if c.vehicle == "car" then item.hasCar
      else if c.vehicle == "moto" then item.hasMoto
      else if c.vehicle == "both" then item.hasCar && item.hasMoto
      else true
    case Diff =>
      !c.diffPricing || (item.pricingWeekday != "" && item.pricingWeekend != "" && item.pricingWeekday != item.pricingWeekend)
    case Cap => !c.hasCap || HasCapMarker(item.pricingWeekday + item.pricingWeekend)
  }

  /** The filter callback: the conjunction of the four sub-predicates. */
  predicate Matches(item: Item, c: Criteria) {
    Passes(item, c, Keyword) && Passes(item, c, Vehicle) && Passes(item, c, Diff) && Passes(item, c, Cap)
  }

  /** The filter callback as a function value. */
  function MatchesFor(c: Criteria): Item -> bool {
    x => Matches(x, c)
  }

  /** One sub-predicate as a function value. */
  function PassesFor(c: Criteria, check: Check): Item -> bool {
    x => Passes(x, c, check)
  }

  /** `items.filter(...)`: the matching items, in their order. */
  function Filter(items: seq<Item>, c: Criteria): (r: seq<Item>)
    ensures |r| <= |items|
    ensures forall x :: x in r ==> x in items && Matches(x, c)
  {
    KeepMembers(items, MatchesFor(c));
    Keep(items, MatchesFor(c))
  }

  /** Exactly the matching items are kept, each with all its copies. */
  lemma FilterMembers(items: seq<Item>, c: Criteria)
    ensures forall x :: x in Filter(items, c) <==> x in items && Matches(x, c)
    ensures forall x :: multiset(Filter(items, c))[x] == if Matches(x, c) then multiset(items)[x] else 0
  {
    KeepMembers(items, MatchesFor(c));
    forall x ensures multiset(Filter(items, c))[x] == if Matches(x, c) then multiset(items)[x] else 0 {
      KeepCounts(items, MatchesFor(c), x);
    }
  }

  /** Order preservation: filtering a concatenation filters each part in place. */
  lemma FilterAppend(a: seq<Item>, b: seq<Item>, c: Criteria)
    ensures Filter(a + b, c) == Filter(a, c) + Filter(b, c)
  {
    KeepAppend(a, b, MatchesFor(c));
  }

  /** The keyword and vehicle sub-predicates together. */
  function KeywordAndVehicle(c: Criteria): Item -> bool {
    x => Passes(x, c, Keyword) && Passes(x, c, Vehicle)
  }

  /** The first three sub-predicates together. */
  function AllButCap(c: Criteria): Item -> bool {
    x => Passes(x, c, Keyword) && Passes(x, c, Vehicle) && Passes(x, c, Diff)
  }

  lemma KeywordThenVehicle(items: seq<Item>, c: Criteria)
    ensures Keep(Keep(items, PassesFor(c, Keyword)), PassesFor(c, Vehicle)) == Keep(items, KeywordAndVehicle(c))
  {
    KeepKeep(items, PassesFor(c, Keyword), PassesFor(c, Vehicle), KeywordAndVehicle(c));
  }

  lemma ThenDiff(items: seq<Item>, c: Criteria)
    ensures Keep(Keep(items, KeywordAndVehicle(c)), PassesFor(c, Diff)) == Keep(items, AllButCap(c))
  {
    KeepKeep(items, KeywordAndVehicle(c), PassesFor(c, Diff), AllButCap(c));
  }

  lemma ThenCap(items: seq<Item>, c: Criteria)
    ensures Keep(Keep(items, AllButCap(c)), PassesFor(c, Cap)) == Filter(items, c)
  {
    KeepKeep(items, AllButCap(c), PassesFor(c, Cap), MatchesFor(c));
  }

  /** The filter is the four sub-filters applied one after another. */
  lemma FilterIsSubFilters(items: seq<Item>, c: Criteria)
    ensures Filter(items, c)
      == Keep(Keep(Keep(Keep(items, PassesFor(c, Keyword)), PassesFor(c, Vehicle)), PassesFor(c, Diff)), PassesFor(c, Cap))
  {
    KeywordThenVehicle(items, c);
    ThenDiff(items, c);
    ThenCap(items, c);
  }

  /** The sub-filters can be applied in either order: they are independent. */
  lemma SubFiltersCommute(items: seq<Item>, c: Criteria, p: Check, q: Check)
    ensures Keep(Keep(items, PassesFor(c, p)), PassesFor(c, q)) == Keep(Keep(items, PassesFor(c, q)), PassesFor(c, p))
  {
    KeepCommutes(items, PassesFor(c, p), PassesFor(c, q));
  }

  /** With an all-whitespace keyword, no vehicle choice and both boxes unchecked, nothing is filtered out. */
  lemma NoCriteriaKeepsAll(items: seq<Item>, c: Criteria)
    requires AllWhitespace(c.keyword)
    requires c.vehicle !in {"car", "moto", "both"}
    requires !c.diffPricing && !c.hasCap
    ensures Filter(items, c) == items
  {
    assert KeywordOf(c) == "" by {
      assert Trim(c.keyword) == "";
    }
    forall i | 0 <= i < |items| ensures MatchesFor(c)(items[i]) {
      assert Passes(items[i], c, Keyword);
    }
    KeepAll(items, MatchesFor(c));
  }

  /** Differential pricing: both prices present and different. */
  lemma DiffPricingExample(item: Item, c: Criteria)
    requires c.diffPricing
    requires item.pricingWeekday == "50元" && item.pricingWeekend == "50元"
    ensures !Matches(item, c)
  {
  }

  /** The keyword search ignores letter case on the record side. */
  lemma {:induction false} KeywordIgnoresRecordCase(item: Item, c: Criteria)
    ensures Passes(item, c, Keyword)
      == Passes(item.(parkingName := ToLower(item.parkingName), address := ToLower(item.address)), c, Keyword)
  {
    var lowered := item.(parkingName := ToLower(item.parkingName), address := ToLower(item.address));
    assert Haystack(lowered) == Haystack(item) by {
      forall i | 0 <= i < |Haystack(item)| ensures Haystack(lowered)[i] == Haystack(item)[i] {
        var raw := item.parkingName + " " + item.address;
        var rawLowered := lowered.parkingName + " " + lowered.address;
        if i < |item.parkingName| {
          assert raw[i] == item.parkingName[i] && rawLowered[i] == lowered.parkingName[i];
        } else if i > |item.parkingName| {
          var k := i - |item.parkingName| - 1;
          assert raw[i] == item.address[k] && rawLowered[i] == lowered.address[k];
        }
      }
    }
  }

  /** The weekday-price sort key: `getPriceNumber(item.pricingWeekday)`. */
  function PriceKey(item: Item): Option<real> {
    PriceNumber(item.pricingWeekday)
  }

  /** The "weekday" comparator's "at most 0". */
  predicate ByWeekdayPrice(a: Item, b: Item) {
    PriceNotAfter(PriceKey(a), PriceKey(b))
  }

  /** `localeCompare(…, "zh-Hant")` is not modelled: any collation whose "at most 0" is a total preorder will do. */
  ghost predicate IsCollation(collate: (string, string) -> int) {
    && (forall a, b :: collate(a, b) <= 0 || collate(b, a) <= 0)
    && (forall a, b, c :: collate(a, b) <= 0 && collate(b, c) <= 0 ==> collate(a, c) <= 0)
  }

  /** The "name" comparator's "at most 0". */
  function ByName(collate: (string, string) -> int): (Item, Item) -> bool {
    (a: Item, b: Item) => collate(a.parkingName, b.parkingName) <= 0
  }

  /** Numbers ascend, and every text without a number comes after them all, tying with the others like it. */
  lemma WeekdayPriceOrder()
    ensures TotalPreorder(ByWeekdayPrice)
  {
    forall a: Item, b: Item ensures ByWeekdayPrice(a, b) || ByWeekdayPrice(b, a) {
    }
  }

  lemma NameOrder(collate: (string, string) -> int)
    requires IsCollation(collate)
    ensures TotalPreorder(ByName(collate))
  {
    var le := ByName(collate);
    forall a: Item, b: Item ensures le(a, b) || le(b, a) {
      assert collate(a.parkingName, b.parkingName) <= 0 || collate(b.parkingName, a.parkingName) <= 0;
    }
    forall a: Item, b: Item, d: Item | le(a, b) && le(b, d) ensures le(a, d) {
      assert collate(a.parkingName, b.parkingName) <= 0 && collate(b.parkingName, d.parkingName) <= 0;
    }
  }

  /** The order `applyFilters` leaves the filtered items in: by name, by weekday price, or as filtered. */
  function Arrange(items: seq<Item>, sort: string, collate: (string, string) -> int): (r: seq<Item>)
    ensures multiset(r) == multiset(items)
    ensures sort != "name" && sort != "weekday" ==> r == items
  {
    if sort == "name" then
      SortByPermutes(items, ByName(collate));
      SortBy(items, ByName(collate))
    else if sort == "weekday" then
      SortByPermutes(items, ByWeekdayPrice);
      SortBy(items, ByWeekdayPrice)
    else items
  }

  /**
   * What `applyFilters` assigns: exactly the matching items, each as often as
   * in the input, and ordered by the chosen comparator with ties in filter order.
   */
  lemma ArrangedFilter(items: seq<Item>, c: Criteria, collate: (string, string) -> int)
    requires IsCollation(collate)
    ensures var r := Arrange(Filter(items, c), c.sort, collate);
      && multiset(r) == multiset(Filter(items, c))
      && (forall x :: x in r <==> x in items && Matches(x, c))
      && (c.sort == "name" ==> Sorted(r, ByName(collate)))
      && (c.sort == "weekday" ==> Sorted(r, ByWeekdayPrice))
      && (forall y :: c.sort == "name" ==> TiesWith(r, ByName(collate), y) == TiesWith(Filter(items, c), ByName(collate), y))
      && (forall y :: c.sort == "weekday" ==> TiesWith(r, ByWeekdayPrice, y) == TiesWith(Filter(items, c), ByWeekdayPrice, y))
  {
    var f := Filter(items, c);
    FilterMembers(items, c);
    if c.sort == "name" {
      NameOrder(collate);
      SortByPermutes(f, ByName(collate));
      SortBySorted(f, ByName(collate));
      forall y { SortByStable(f, ByName(collate), y); }
    } else if c.sort == "weekday" {
      WeekdayPriceOrder();
      SortByPermutes(f, ByWeekdayPrice);
      SortBySorted(f, ByWeekdayPrice);
      forall y { SortByStable(f, ByWeekdayPrice, y); }
    }
    var r := Arrange(f, c.sort, collate);
    forall x ensures x in r <==> x in f {
      assert x in r <==> x in multiset(r);
      assert x in f <==> x in multiset(f);
    }
  }

  function WithWeekday(base: Item, price: string): Item {
    base.(pricingWeekday := price)
  }

  /** Weekday prices "100", "" and "50" come out as 50, 100, then the one without a number. */
  lemma WeekdaySortExample(base: Item)
    ensures var i100, iNone, i50 := WithWeekday(base, "100"), WithWeekday(base, ""), WithWeekday(base, "50");
      SortBy([i100, iNone, i50], ByWeekdayPrice) == [i50, i100, iNone]
  {
    var i100, iNone, i50 := WithWeekday(base, "100"), WithWeekday(base, ""), WithWeekday(base, "50");
    PlainPrices();
    var s := [i100, iNone, i50];
    assert s[..2][..1] == [i100] && s[..2] == [i100, iNone];
    assert SortBy([i100], ByWeekdayPrice) == [i100] by { assert [i100][..0] == []; }
    assert SortBy([i100, iNone], ByWeekdayPrice) == [i100, iNone];
    assert Insert([i100], i50, ByWeekdayPrice) == [i50, i100] by { assert [i100][..0] == []; }
    assert Insert([i100, iNone], i50, ByWeekdayPrice) == [i50, i100, iNone] by {
      assert [i100, iNone][..1] == [i100];
    }
  }
}

=== FILE: records.dfy ===
/**
 * Listing records: the raw feed shape (nested `pricing`, `google` and
 * `thumbnail` objects, every leaf optional) and the canonical record the
 * page works with, produced by `normalizeItem`.
 */
module Records {
  import opened Wrappers
  import opened Text

  /** A string-valued JSON field that may be absent. */
  type Field = Option<string>

  /** JavaScript `field || fallback` on a string field: absent and "" are both falsy. */
  function Or(f: Field, fallback: string): string {
    if f.Some? && f.value != "" then f.value else fallback
  }

  /** The `templates` object, which may sit at three different depths of a raw record. */
  datatype RawTemplates = RawTemplates(
    classicPhotoreferenceUrlTemplate: Field,
    newPhotoResourceUrlTemplate: Field)

  datatype RawPlacePhoto = RawPlacePhoto(
    url: Field,
    photoReference: Field,
    photoResourceName: Field,
    templates: Option<RawTemplates>)

  datatype RawStreetView = RawStreetView(url: Field)

  datatype RawThumbnail = RawThumbnail(
    placePhoto: Option<RawPlacePhoto>,
    streetView: Option<RawStreetView>,
    templates: Option<RawTemplates>)

  datatype RawPricing = RawPricing(weekday: Field, weekdayFee: Field, weekend: Field, weekendFee: Field)

  datatype RawGoogle = RawGoogle(rating: Option<real>, reviewCount: Option<int>, mapsUrl: Field, url: Field)

  /** One entry of the data feed, as parsed from JSON. */
  datatype RawItem = RawItem(
    id: Field,
    parkingName: Field,
    name: Field,
    address: Field,
    addressText: Field,
    district: Field,
    vehicleTypes: Field,
    vehicleType: Field,
    pricing: Option<RawPricing>,
    google: Option<RawGoogle>,
    thumbnail: Option<RawThumbnail>,
    templates: Option<RawTemplates>)

  /** The photo sources kept on a canonical record; `getThumbnailUrl` picks one. */
  datatype ThumbnailSources = ThumbnailSources(
    url: string,
    photoReference: string,
    photoResourceName: string,
    classicTemplate: string,
    newTemplate: string,
    streetViewUrl: string)

  /** The canonical listing record. */
  datatype Item = Item(
    id: string,
    parkingName: string,
    address: string,
    district: string,
    vehicleText: string,
    hasCar: bool,
    hasMoto: bool,
    pricingWeekday: string,
    pricingWeekend: string,
    googleRating: Option<real>,
    googleReviewCount: Option<int>,
    googleMapsUrl: string,
    thumbnail: ThumbnailSources)

  const UnnamedLot := "未命名停車場"
  const OtherDistrict := "其他"
  const DistrictSuffix := '區'
  const CarWord := "汽車"
  const MotorcycleWord := "機車"

  /** Characters the regular-expression `.` does not match. */
  predicate IsLineTerminator(c: char) {
    c == '\n' || c == '\r' || c == '\U{2028}' || c == '\U{2029}'
  }

  /** The pattern `.{2}區` matches `s` at index `i`. */
  predicate DistrictAt(s: string, i: nat) {
    i + 3 <= |s| && !IsLineTerminator(s[i]) && !IsLineTerminator(s[i + 1]) && s[i + 2] == DistrictSuffix
  }

  /** The leftmost index at or after `from` where `.{2}區` matches. */
  function DistrictIndexFrom(s: string, from: nat): (r: Option<nat>)
    requires from <= |s|
    ensures r.Some? ==> from <= r.value && DistrictAt(s, r.value)
    ensures forall i: nat :: from <= i && (r.None? || i < r.value) ==> !DistrictAt(s, i)
    decreases |s| - from
  {
    if from + 3 > |s| then None
    else if DistrictAt(s, from) then Some(from)
    else DistrictIndexFrom(s, from + 1)
  }

  /** `address.match(/.{2}區/)`: the first three-character window ending in 區, if any. */
  function MatchDistrict(address: string): (r: Option<string>)
    ensures r.None? <==> forall i: nat :: !DistrictAt(address, i)
    ensures r.Some? ==> exists i: nat :: DistrictAt(address, i) && r.value == address[i..i + 3]
                                         && forall j: nat :: j < i ==> !DistrictAt(address, j)
  {
    match DistrictIndexFrom(address, 0)
    case None => None
    case Some(i) => Some(address[i..i + 3])
  }

  /** The district: the record's own non-empty `district`, else the address match, else 其他. */
  function DistrictOf(raw: RawItem, address: string): (r: string)
    ensures r != ""
  {
    Or(raw.district, match MatchDistrict(address) case Some(m) => m case None => OtherDistrict)
  }

  function NoPricing(): RawPricing { RawPricing(None, None, None, None) }
  function NoGoogle(): RawGoogle { RawGoogle(None, None, None, None) }
  function NoThumbnail(): RawThumbnail { RawThumbnail(None, None, None) }
  function NoPlacePhoto(): RawPlacePhoto { RawPlacePhoto(None, None, None, None) }
  function NoTemplates(): RawTemplates { RawTemplates(None, None) }

  /**
   * The templates object used for photo URLs: the first one PRESENT among
   * `thumbnail.place_photo.templates`, `thumbnail.templates` and `templates`
   * (an object is truthy even when empty).
   */
  function TemplatesOf(raw: RawItem): (r: RawTemplates)
    ensures var pp := if raw.thumbnail.Some? then raw.thumbnail.value.placePhoto else None;
      var th := if raw.thumbnail.Some? then raw.thumbnail.value.templates else None;
      && (pp.Some? && pp.value.templates.Some? ==> r == pp.value.templates.value)
      && ((pp.None? || pp.value.templates.None?) && th.Some? ==> r == th.value)
      && ((pp.None? || pp.value.templates.None?) && th.None? && raw.templates.Some? ==> r == raw.templates.value)
      && ((pp.None? || pp.value.templates.None?) && th.None? && raw.templates.None? ==> r == NoTemplates())
  {
    var thumbnail := raw.thumbnail.GetOr(NoThumbnail());
    var placePhoto := thumbnail.placePhoto.GetOr(NoPlacePhoto());
    if placePhoto.templates.Some? then placePhoto.templates.value
    else if thumbnail.templates.Some? then thumbnail.templates.value
    else raw.templates.GetOr(NoTemplates())
  }

  function ThumbnailSourcesOf(raw: RawItem): ThumbnailSources {
    var thumbnail := raw.thumbnail.GetOr(NoThumbnail());
    var placePhoto := thumbnail.placePhoto.GetOr(NoPlacePhoto());
    var streetView := thumbnail.streetView.GetOr(RawStreetView(None));
    var templates := TemplatesOf(raw);
    ThumbnailSources(
      Or(placePhoto.url, ""),
      Or(placePhoto.photoReference, ""),
      Or(placePhoto.photoResourceName, ""),
      Or(templates.classicPhotoreferenceUrlTemplate, ""),
      Or(templates.newPhotoResourceUrlTemplate, ""),
      Or(streetView.url, ""))
  }

  /** The address: `address`, else `address_text`, else "". */
  function AddressOf(raw: RawItem): string {
    Or(raw.address, Or(raw.addressText, ""))
  }

  /** The vehicle text: `vehicle_types`, else `vehicleType`, else "". */
  function VehicleTextOf(raw: RawItem): string {
    Or(raw.vehicleTypes, Or(raw.vehicleType, ""))
  }

  /** `normalizeItem`: total, every field has a default. */
  function NormalizeItem(raw: RawItem): (r: Item)
    ensures r.parkingName != ""
    ensures r.district != ""
    ensures r.hasCar <==> Contains(r.vehicleText, CarWord)
    ensures r.hasMoto <==> Contains(r.vehicleText, MotorcycleWord)
  {
    var pricing := raw.pricing.GetOr(NoPricing());
    var google := raw.google.GetOr(NoGoogle());
    var address := AddressOf(raw);
    var vehicleText := VehicleTextOf(raw);
    Item(
      Or(raw.id, Or(raw.parkingName, "") + "-" + address),
      Or(raw.parkingName, Or(raw.name, UnnamedLot)),
      address,
      DistrictOf(raw, address),
      vehicleText,
      Contains(vehicleText, CarWord),
      Contains(vehicleText, MotorcycleWord),
      Or(pricing.weekday, Or(pricing.weekdayFee, "")),
      Or(pricing.weekend, Or(pricing.weekendFee, "")),
      google.rating,
      google.reviewCount,
      Or(google.mapsUrl, Or(google.url, "")),
      ThumbnailSourcesOf(raw))
  }
}

=== FILE: sorting.dfy ===
/**
 * Stable sorting by a comparator, as `Array.prototype.sort` does it: an
 * element goes before another when the comparator is negative, and ties keep
 * their input order. `le(a, b)` means "the comparator on (a, b) is at most 0".
 */
module Sorting {
  import opened Subsequences

  /** `le` is total and transitive, as a consistent comparator's "at most 0" is. */
  ghost predicate TotalPreorder<T(!new)>(le: (T, T) -> bool) {
    && (forall a, b :: le(a, b) || le(b, a))
    && (forall a, b, c :: le(a, b) && le(b, c) ==> le(a, c))
  }

  predicate Sorted<T>(s: seq<T>, le: (T, T) -> bool) {
    forall i, j :: 0 <= i < j < |s| ==> le(s[i], s[j])
  }

  /** `a` and `b` compare equal. */
  predicate Tie<T>(le: (T, T) -> bool, a: T, b: T) {
    le(a, b) && le(b, a)
  }

  /** The tie class of `y`, as a filter. */
  function TieClass<T>(le: (T, T) -> bool, y: T): T -> bool {
    x => Tie(le, x, y)
  }

  /** The elements of `s` that tie with `y`, in their order in `s`. */
  function TiesWith<T>(s: seq<T>, le: (T, T) -> bool, y: T): seq<T> {
    Keep(s, TieClass(le, y))
  }

  /** Inserts `x` into sorted `s` after every element that is not greater than it. */
  function Insert<T>(s: seq<T>, x: T, le: (T, T) -> bool): seq<T> {
    if s == [] then [x]
    else if le(s[|s| - 1], x) then s + [x]
    else Insert(s[..|s| - 1], x, le) + [s[|s| - 1]]
  }

  /** The stable sort of `s`: each element in turn is inserted into the sorted prefix. */
  function SortBy<T>(s: seq<T>, le: (T, T) -> bool): seq<T> {
    if s == [] then [] else Insert(SortBy(s[..|s| - 1], le), s[|s| - 1], le)
  }

  lemma {:induction false} InsertPermutes<T>(s: seq<T>, x: T, le: (T, T) -> bool)
    ensures multiset(Insert(s, x, le)) == multiset(s) + multiset{x}
  {
    if s != [] && !le(s[|s| - 1], x) {
      var init := s[..|s| - 1];
      InsertPermutes(init, x, le);
      assert s == init + [s[|s| - 1]];
    }
  }

  lemma {:induction false} InsertSorted<T(!new)>(s: seq<T>, x: T, le: (T, T) -> bool)
    requires TotalPreorder(le)
    requires Sorted(s, le)
    ensures Sorted(Insert(s, x, le), le)
  {
    if s == [] {
    } else if le(s[|s| - 1], x) {
      var r := s + [x];
      forall i, j | 0 <= i < j < |r| ensures le(r[i], r[j]) {
        if j == |s| && i < |s| - 1 {
          assert le(s[i], s[|s| - 1]);
        }
      }
    } else {
      var init, last := s[..|s| - 1], s[|s| - 1];
      InsertSorted(init, x, le);
      var m := Insert(init, x, le);
      InsertPermutes(init, x, le);
      forall i | 0 <= i < |m| ensures le(m[i], last) {
        assert m[i] in multiset(m);
        if m[i] != x {
          assert m[i] in multiset(init);
          var k :| 0 <= k < |init| && init[k] == m[i];
          assert s[k] == init[k];
        }
      }
      var r := m + [last];
      forall i, j | 0 <= i < j < |r| ensures le(r[i], r[j]) {
        if j == |m| { assert r[i] == m[i]; }
      }
    }
  }

  /** Inserting `x` adds it behind the elements that tie with it and disturbs no other tie class. */
  lemma {:induction false} InsertKeepsTies<T(!new)>(s: seq<T>, x: T, le: (T, T) -> bool, y: T)
    requires TotalPreorder(le)
    ensures TiesWith(Insert(s, x, le), le, y) == TiesWith(s, le, y) + TiesWith([x], le, y)
  {
    if s == [] {
      assert TiesWith([x], le, y) == TiesWith([], le, y) + TiesWith([x], le, y);
    } else if le(s[|s| - 1], x) {
      KeepAppend(s, [x], TieClass(le, y));
    } else {
      var init, last := s[..|s| - 1], s[|s| - 1];
      var xs, ls := TiesWith([x], le, y), TiesWith([last], le, y);
      InsertKeepsTies(init, x, le, y);
      KeepAppend(Insert(init, x, le), [last], TieClass(le, y));
      KeepAppend(init, [last], TieClass(le, y));
      assert s == init + [last];
      TiesOrdered(le, last, x, y);
      assert xs == [] || ls == [] by {
        assert [x][..0] == [] && [last][..0] == [];
      }
      assert TiesWith(Insert(s, x, le), le, y) == TiesWith(init, le, y) + xs + ls;
    }
  }

  /** Two elements that both tie with `y` are in order either way. */
  lemma TiesOrdered<T(!new)>(le: (T, T) -> bool, a: T, b: T, y: T)
    requires TotalPreorder(le)
    ensures Tie(le, a, y) && Tie(le, b, y) ==> le(a, b)
  {
  }

  lemma {:induction false} SortByPermutes<T>(s: seq<T>, le: (T, T) -> bool)
    ensures multiset(SortBy(s, le)) == multiset(s)
  {
    if s != [] {
      var init := s[..|s| - 1];
      SortByPermutes(init, le);
      InsertPermutes(SortBy(init, le), s[|s| - 1], le);
      assert s == init + [s[|s| - 1]];
    }
  }

  /** Sorting keeps the length and the set of elements. */
  lemma SortByMembers<T>(s: seq<T>, le: (T, T) -> bool)
    ensures |SortBy(s, le)| == |s|
    ensures forall x :: x in SortBy(s, le) <==> x in s
  {
    var r := SortBy(s, le);
    SortByPermutes(s, le);
    assert |r| == |multiset(r)|;
    forall x ensures x in r <==> x in s {
      assert x in r <==> x in multiset(r);
    }
  }

  lemma {:induction false} SortBySorted<T(!new)>(s: seq<T>, le: (T, T) -> bool)
    requires TotalPreorder(le)
    ensures Sorted(SortBy(s, le), le)
  {
    if s != [] {
      SortBySorted(s[..|s| - 1], le);
      InsertSorted(SortBy(s[..|s| - 1], le), s[|s| - 1], le);
    }
  }

  /** Stability: the elements tying with any `y` appear in the output in their input order. */
  lemma {:induction false} SortByStable<T(!new)>(s: seq<T>, le: (T, T) -> bool, y: T)
    requires TotalPreorder(le)
    ensures TiesWith(SortBy(s, le), le, y) == TiesWith(s, le, y)
  {
    if s != [] {
      var init, last := s[..|s| - 1], s[|s| - 1];
      SortByStable(init, le, y);
      InsertKeepsTies(SortBy(init, le), last, le, y);
      KeepAppend(init, [last], TieClass(le, y));
      assert s == init + [last];
    }
  }

  /** Sorting keeps a sequence without repetitions free of repetitions. */
  lemma {:induction false} SortByDistinct<T>(s: seq<T>, le: (T, T) -> bool)
    requires forall i, j :: 0 <= i < j < |s| ==> s[i] != s[j]
    ensures var r := SortBy(s, le); forall i, j :: 0 <= i < j < |r| ==> r[i] != r[j]
  {
    if s != [] {
      var init, last := s[..|s| - 1], s[|s| - 1];
      SortByDistinct(init, le);
      SortByPermutes(init, le);
      var m := SortBy(init, le);
      assert last !in multiset(m);
      InsertDistinct(m, last, le);
      assert SortBy(s, le) == Insert(m, last, le);
    }
  }

  lemma {:induction false} InsertDistinct<T>(s: seq<T>, x: T, le: (T, T) -> bool)
    requires forall i, j :: 0 <= i < j < |s| ==> s[i] != s[j]
    requires x !in multiset(s)
    ensures var r := Insert(s, x, le); forall i, j :: 0 <= i < j < |r| ==> r[i] != r[j]
  {
    if s == [] {
    } else if le(s[|s| - 1], x) {
      var r := s + [x];
      forall i, j | 0 <= i < j < |r| ensures r[i] != r[j] {
        if j == |s| { assert r[i] in multiset(s); }
      }
    } else {
      var init, last := s[..|s| - 1], s[|s| - 1];
      assert s == init + [last];
      InsertDistinct(init, x, le);
      InsertPermutes(init, x, le);
      var m := Insert(init, x, le);
      var r := m + [last];
      forall i, j | 0 <= i < j < |r| ensures r[i] != r[j] {
        if j == |m| {
          assert r[i] in multiset(m);
          if r[i] == x {
            assert last in multiset(s);
          } else {
            assert r[i] in multiset(init);
            var k :| 0 <= k < |init| && init[k] == r[i];
            assert s[k] == init[k];
          }
        }
      }
    }
  }

  lemma InsertUnfold<T>(p: seq<T>, x: T, le: (T, T) -> bool)
    requires p != [] && !le(p[|p| - 1], x)
    ensures Insert(p, x, le) == Insert(p[..|p| - 1], x, le) + [p[|p| - 1]]
  {
  }

  /** The insertion loop stops where `x` belongs. */
  lemma InsertStop<T>(sorted: seq<T>, x: T, le: (T, T) -> bool, j: nat)
    requires j <= |sorted| && (j == 0 || le(sorted[j - 1], x))
    ensures Insert(sorted[..j], x, le) == sorted[..j] + [x]
  {
  }

  /**
   * Where the insertion loop stops: `x` lands at index `j` when every element
   * from `j` on is greater than it and the one before `j` (if any) is not.
   */
  lemma {:induction false} InsertAt<T>(p: seq<T>, x: T, le: (T, T) -> bool, j: nat)
    requires j <= |p| && (j == 0 || le(p[j - 1], x))
    requires forall k :: j <= k < |p| ==> !le(p[k], x)
    ensures Insert(p, x, le) == p[..j] + [x] + p[j..]
    decreases |p|
  {
    if j == |p| {
      InsertStop(p, x, le, j);
      assert p[..j] == p && p[j..] == [];
    } else {
      InsertUnfold(p, x, le);
      var q := p[..|p| - 1];
      InsertAt(q, x, le, j);
      assert q[..j] == p[..j];
      assert q[j..] + [p[|p| - 1]] == p[j..];
    }
  }

  lemma SortByPrefix<T>(s: seq<T>, le: (T, T) -> bool, i: nat)
    requires i < |s|
    ensures SortBy(s[..i + 1], le) == Insert(SortBy(s[..i], le), s[i], le)
  {
    assert s[..i + 1][..i] == s[..i];
  }

  /** Inserts `a[i]` into the sorted prefix `a[..i]`, shifting strictly greater elements right. */
  method InsertLast<T>(a: array<T>, i: nat, le: (T, T) -> bool)
    requires i < a.Length
    modifies a
    ensures a[..i + 1] == Insert(old(a[..i]), old(a[i]), le)
    ensures forall k :: i < k < a.Length ==> a[k] == old(a[k])
  {
    var x := a[i];
    ghost var sorted := a[..i];
    var j := i;
    while j > 0 && !le(a[j - 1], x)
      invariant 0 <= j <= i
      invariant forall k :: 0 <= k < j ==> a[k] == sorted[k]
      invariant forall k :: j < k <= i ==> a[k] == sorted[k - 1]
      invariant forall k :: i < k < a.Length ==> a[k] == old(a[k])
      invariant forall k :: j <= k < i ==> !le(sorted[k], x)
    {
      a[j] := a[j - 1];
      j := j - 1;
    }
    a[j] := x;
    InsertAt(sorted, x, le, j);
    assert forall k :: 0 <= k <= i ==> a[k] == (sorted[..j] + [x] + sorted[j..])[k];
  }

  /** Sorts `a` in place by insertion: the result is `SortBy` of the original contents. */
  method StableSort<T>(a: array<T>, le: (T, T) -> bool)
    modifies a
    ensures a[..] == SortBy(old(a[..]), le)
  {
    ghost var s := a[..];
    var i := 0;
    while i < a.Length
      invariant 0 <= i <= a.Length
      invariant a[..i] == SortBy(s[..i], le)
      invariant forall k :: i <= k < a.Length ==> a[k] == s[k]
    {
      InsertLast(a, i, le);
      SortByPrefix(s, le, i);
      i := i + 1;
    }
    assert s[..a.Length] == s;
  }
}

=== FILE: subsequences.dfy ===
/** Order-preserving selection from a sequence: `Array.prototype.filter`. */
module Subsequences {

  /** The elements of `s` satisfying `p`, in their order in `s`. */
  function Keep<T>(s: seq<T>, p: T -> bool): (r: seq<T>)
    ensures |r| <= |s|
  {
    if s == [] then [] else Keep(s[..|s| - 1], p) + if p(s[|s| - 1]) then [s[|s| - 1]] else []
  }

  /** Order preservation: selecting from a concatenation selects from each part in place. */
  lemma {:induction false} KeepAppend<T>(a: seq<T>, b: seq<T>, p: T -> bool)
    ensures Keep(a + b, p) == Keep(a, p) + Keep(b, p)
    decreases |b|
  {
    if b == [] {
      assert a + b == a;
    } else {
      var init := b[..|b| - 1];
      KeepAppend(a, init, p);
      assert (a + b)[..|a + b| - 1] == a + init;
    }
  }

  /** Every copy of a selected value is kept and every copy of another is dropped. */
  lemma {:induction false} KeepCounts<T>(s: seq<T>, p: T -> bool, x: T)
    ensures multiset(Keep(s, p))[x] == if p(x) then multiset(s)[x] else 0
  {
    if s != [] {
      var init, last := s[..|s| - 1], s[|s| - 1];
      KeepCounts(init, p, x);
      assert s == init + [last];
    }
  }

  lemma KeepMembers<T>(s: seq<T>, p: T -> bool)
    ensures forall x :: x in Keep(s, p) <==> x in s && p(x)
  {
    forall x ensures x in Keep(s, p) <==> x in s && p(x) {
      KeepCounts(s, p, x);
    }
  }

  /** Selecting by `p` and then by `q` is selecting by both at once. */
  lemma {:induction false} KeepKeep<T>(s: seq<T>, p: T -> bool, q: T -> bool, pq: T -> bool)
    requires forall x :: pq(x) == (p(x) && q(x))
    ensures Keep(Keep(s, p), q) == Keep(s, pq)
  {
    if s != [] {
      var init, last := s[..|s| - 1], s[|s| - 1];
      KeepKeep(init, p, q, pq);
      var tail := if p(last) then [last] else [];
      KeepAppend(Keep(init, p), tail, q);
      assert tail == [] || tail[..0] == [];
    }
  }

  /** The order in which two selections are made does not matter. */
  lemma KeepCommutes<T>(s: seq<T>, p: T -> bool, q: T -> bool)
    ensures Keep(Keep(s, p), q) == Keep(Keep(s, q), p)
  {
    var both := x => p(x) && q(x);
    KeepKeep(s, p, q, both);
    KeepKeep(s, q, p, both);
  }

  /** Selecting by a predicate every element satisfies keeps the whole sequence. */
  lemma {:induction false} KeepAll<T>(s: seq<T>, p: T -> bool)
    requires forall i :: 0 <= i < |s| ==> p(s[i])
    ensures Keep(s, p) == s
  {
    if s != [] {
      KeepAll(s[..|s| - 1], p);
    }
  }
}

=== FILE: text.dfy ===
/**
 * The JavaScript string operations the listing pipeline relies on:
 * `trim`, `toLowerCase`, `includes` / a literal regular-expression test,
 * and `replace` with a string pattern (first occurrence only).
 */
module Text {
  import opened Wrappers

  /** The characters `String.prototype.trim` removes: ECMAScript WhiteSpace and LineTerminator. */
  const JsWhitespace: set<char> :=
    {'\t', '\U{B}', '\U{C}', ' ', '\U{A0}', '\U{FEFF}', '\U{1680}',
     '\U{2000}', '\U{2001}', '\U{2002}', '\U{2003}', '\U{2004}', '\U{2005}',
     '\U{2006}', '\U{2007}', '\U{2008}', '\U{2009}', '\U{200A}',
     '\U{202F}', '\U{205F}', '\U{3000}',
     '\n', '\r', '\U{2028}', '\U{2029}'}

  predicate IsJsWhitespace(c: char) {
    c in JsWhitespace
  }

  predicate AllWhitespace(s: string) {
    forall i :: 0 <= i < |s| ==> IsJsWhitespace(s[i])
  }

  /** Drops leading whitespace; what is left is a suffix of `s`. */
  function TrimStart(s: string): (r: string)
    ensures |r| <= |s| && r == s[|s| - |r|..]
    ensures AllWhitespace(s[..|s| - |r|])
    ensures r != [] ==> !IsJsWhitespace(r[0])
  {
    if s != [] && IsJsWhitespace(s[0]) then
      var r := TrimStart(s[1..]);
      TrimStartStep(s, r);
      r
    else s
  }

  /** Cutting one leading whitespace character and then a whitespace prefix of the rest cuts a whitespace prefix. */
  lemma TrimStartStep(s: string, r: string)
    requires s != [] && IsJsWhitespace(s[0])
    requires |r| <= |s| - 1 && r == s[1..][|s| - 1 - |r|..]
    requires AllWhitespace(s[1..][..|s| - 1 - |r|])
    ensures r == s[|s| - |r|..]
    ensures AllWhitespace(s[..|s| - |r|])
  {
    assert s[..|s| - |r|] == [s[0]] + s[1..][..|s| - 1 - |r|];
    assert s[1..][|s| - 1 - |r|..] == s[|s| - |r|..];
  }

  /** Drops trailing whitespace; what is left is a prefix of `s`. */
  function TrimEnd(s: string): (r: string)
    ensures |r| <= |s| && r == s[..|r|]
    ensures AllWhitespace(s[|r|..])
    ensures r != [] ==> !IsJsWhitespace(r[|r| - 1])
  {
    if s != [] && IsJsWhitespace(s[|s| - 1]) then TrimEnd(s[..|s| - 1]) else s
  }

  /** `r` is `s` from index `k` on, with only whitespace cut off before and after it. */
  predicate TrimmedAt(s: string, r: string, k: nat) {
    k + |r| <= |s| && r == s[k..k + |r|] && AllWhitespace(s[..k]) && AllWhitespace(s[k + |r|..])
  }

  /** `s.trim()`: the infix of `s` left after removing whitespace at both ends. */
  function Trim(s: string): (r: string)
    ensures exists k: nat :: TrimmedAt(s, r, k)
    ensures r != [] ==> !IsJsWhitespace(r[0]) && !IsJsWhitespace(r[|r| - 1])
    ensures r == [] <==> AllWhitespace(s)
  {
    var t := TrimStart(s);
    var r := TrimEnd(t);
    TrimInfix(s);
    assert TrimmedAt(s, r, |s| - |t|);
    r
  }

  lemma TrimInfix(s: string)
    ensures TrimmedAt(s, TrimEnd(TrimStart(s)), |s| - |TrimStart(s)|)
    ensures TrimEnd(TrimStart(s)) == [] <==> AllWhitespace(s)
    ensures var r := TrimEnd(TrimStart(s));
      r != [] ==> !IsJsWhitespace(r[0]) && !IsJsWhitespace(r[|r| - 1])
  {
    var t := TrimStart(s);
    var r := TrimEnd(t);
    var k := |s| - |t|;
    TrimInfixSlices(s, t, r, k);
    TrimEmpty(s, t, r, k);
  }

  lemma TrimInfixSlices(s: string, t: string, r: string, k: nat)
    requires k <= |s| && t == s[k..] && |r| <= |t| && r == t[..|r|]
    requires AllWhitespace(s[..k]) && AllWhitespace(t[|r|..])
    ensures TrimmedAt(s, r, k)
  {
    assert s[k..k + |r|] == r;
    assert s[k + |r|..] == t[|r|..];
  }

  lemma TrimEmpty(s: string, t: string, r: string, k: nat)
    requires k <= |s| && t == s[k..] && |r| <= |t| && r == t[..|r|]
    requires AllWhitespace(s[..k]) && AllWhitespace(t[|r|..])
    requires t != [] ==> !IsJsWhitespace(t[0])
    ensures r == [] <==> AllWhitespace(s)
  {
    if r == [] {
      assert t[|r|..] == t;
      if t != [] {
        assert false;
      }
      assert s[..k] == s;
    } else {
      assert s[k] == t[0];
    }
  }

  /** `toLowerCase` restricted to ASCII letters; every other character is kept. */
  function LowerChar(c: char): char {
    if 'A' <= c <= 'Z' then (c as int + 32) as char else c
  }

  function ToLower(s: string): (r: string)
    ensures |r| == |s|
    ensures forall i :: 0 <= i < |s| ==> r[i] == LowerChar(s[i])
  {
    seq(|s|, i requires 0 <= i < |s| => LowerChar(s[i]))
  }

  /** `p` occurs in `s` starting at index `i`. */
  predicate OccursAt(s: string, p: string, i: nat) {
    i + |p| <= |s| && s[i..i + |p|] == p
  }

  /** The leftmost occurrence of `p` in `s` at or after `from`. */
  function IndexFrom(s: string, p: string, from: nat): (r: Option<nat>)
    requires from <= |s|
    ensures r.Some? ==> from <= r.value && OccursAt(s, p, r.value)
    ensures forall i: nat :: from <= i && (r.None? || i < r.value) ==> !OccursAt(s, p, i)
    decreases |s| - from
  {
    if from + |p| > |s| then None
    else if s[from..from + |p|] == p then Some(from)
    else if from == |s| then None
    else IndexFrom(s, p, from + 1)
  }

  /** `s.indexOf(p)`, with `None` for -1. */
  function IndexOf(s: string, p: string): (r: Option<nat>)
    ensures r.Some? ==> OccursAt(s, p, r.value)
    ensures forall i: nat :: (r.None? || i < r.value) ==> !OccursAt(s, p, i)
  {
    IndexFrom(s, p, 0)
  }

  /** `s.includes(p)`, which is also what the literal regular expression `/p/.test(s)` decides. */
  predicate Contains(s: string, p: string): (r: bool)
    ensures r <==> IndexOf(s, p).Some?
    ensures p == [] ==> r
    ensures |p| > |s| ==> !r
  {
    exists i: nat :: i <= |s| && OccursAt(s, p, i)
  }

  /**
   * `s.replace(p, rep)` with a string pattern: only the leftmost occurrence is
   * replaced, and the replacement is taken literally.
   */
  function ReplaceFirst(s: string, p: string, rep: string): (r: string)
    ensures !Contains(s, p) ==> r == s
    ensures forall i: nat :: OccursAt(s, p, i) && (forall j: nat :: j < i ==> !OccursAt(s, p, j))
              ==> r == s[..i] + rep + s[i + |p|..]
  {
    match IndexOf(s, p)
    case None => s
    case Some(i) => s[..i] + rep + s[i + |p|..]
  }

  /** A pattern found at the very start is the one replaced: `p + mid + p` becomes `rep + mid + p`. */
  lemma ReplaceFirstAtStart(p: string, mid: string, rep: string)
    ensures ReplaceFirst(p + mid + p, p, rep) == rep + mid + p
  {
    var s := p + mid + p;
    assert s[0..|p|] == p;
    assert IndexFrom(s, p, 0) == Some(0);
    assert s[..0] + rep + s[|p|..] == rep + mid + p;
  }
}

=== FILE: thumbnails.dfy ===
/** `getThumbnailUrl`: one displayable image URL out of several photo sources. */
module Thumbnails {
  import opened Text
  import opened Records

  const PhotoReferenceToken := "PHOTO_REFERENCE"
  const PhotoResourceNameToken := "PHOTO_RESOURCE_NAME"

  /** The classic template branch applies: both its inputs are non-empty. */
  predicate ClassicUsable(t: ThumbnailSources) {
    t.photoReference != "" && t.classicTemplate != ""
  }

  /** The new-style template branch applies: both its inputs are non-empty. */
  predicate NewUsable(t: ThumbnailSources) {
    t.photoResourceName != "" && t.newTemplate != ""
  }

  /** Substituting a non-empty value into a non-empty template never gives "". */
  lemma ReplaceFirstNonEmpty(s: string, p: string, rep: string)
    requires s != "" && rep != ""
    ensures ReplaceFirst(s, p, rep) != ""
  {
    match IndexOf(s, p)
    case None =>
    case Some(i) =>
      assert |s[..i] + rep + s[i + |p|..]| >= |rep|;
  }

  /**
   * First non-empty source wins: the direct URL, then the classic template
   * with its first PHOTO_REFERENCE replaced, then the new template with its
   * first PHOTO_RESOURCE_NAME replaced, then the street-view URL, else "".
   */
  function ThumbnailUrl(t: ThumbnailSources): (r: string)
    ensures t.url != "" ==> r == t.url
    ensures r == "" <==> t.url == "" && !ClassicUsable(t) && !NewUsable(t) && t.streetViewUrl == ""
  {
    if t.url != "" then t.url
    else if ClassicUsable(t) then
      ReplaceFirstNonEmpty(t.classicTemplate, PhotoReferenceToken, t.photoReference);
      ReplaceFirst(t.classicTemplate, PhotoReferenceToken, t.photoReference)
    else if NewUsable(t) then
      ReplaceFirstNonEmpty(t.newTemplate, PhotoResourceNameToken, t.photoResourceName);
      ReplaceFirst(t.newTemplate, PhotoResourceNameToken, t.photoResourceName)
    else t.streetViewUrl
  }

  /**
   * Without a direct URL, a usable classic template gives the template with
   * exactly its leftmost PHOTO_REFERENCE replaced by the reference; later
   * occurrences stay as they are. A template without the token is
   * `ClassicWithoutToken`.
   */
  lemma ClassicTemplateSubstitution(t: ThumbnailSources, i: nat)
    requires t.url == "" && ClassicUsable(t)
    requires OccursAt(t.classicTemplate, PhotoReferenceToken, i)
    requires forall j: nat :: j < i ==> !OccursAt(t.classicTemplate, PhotoReferenceToken, j)
    ensures ThumbnailUrl(t) == t.classicTemplate[..i] + t.photoReference + t.classicTemplate[i + |PhotoReferenceToken|..]
  {
  }

  /** The new-style template is used only when the direct URL and the classic branch are both unavailable. */
  lemma NewTemplateSubstitution(t: ThumbnailSources, i: nat)
    requires t.url == "" && !ClassicUsable(t) && NewUsable(t)
    requires OccursAt(t.newTemplate, PhotoResourceNameToken, i)
    requires forall j: nat :: j < i ==> !OccursAt(t.newTemplate, PhotoResourceNameToken, j)
    ensures ThumbnailUrl(t) == t.newTemplate[..i] + t.photoResourceName + t.newTemplate[i + |PhotoResourceNameToken|..]
  {
  }

  /** A usable classic template that does not name PHOTO_REFERENCE is the URL unchanged. */
  lemma ClassicWithoutToken(t: ThumbnailSources)
    requires t.url == "" && ClassicUsable(t)
    requires !Contains(t.classicTemplate, PhotoReferenceToken)
    ensures ThumbnailUrl(t) == t.classicTemplate
  {
  }

  /** Likewise a usable new-style template that does not name PHOTO_RESOURCE_NAME. */
  lemma NewWithoutToken(t: ThumbnailSources)
    requires t.url == "" && !ClassicUsable(t) && NewUsable(t)
    requires !Contains(t.newTemplate, PhotoResourceNameToken)
    ensures ThumbnailUrl(t) == t.newTemplate
  {
  }

  /** The street-view URL is the last resort before "". */
  lemma StreetViewFallback(t: ThumbnailSources)
    requires t.url == "" && !ClassicUsable(t) && !NewUsable(t)
    ensures ThumbnailUrl(t) == t.streetViewUrl
  {
  }

  /** A template that starts with the token and names it again later has only the first one replaced. */
  lemma ReplacesOnlyFirstToken(ref: string, mid: string)
    requires ref != ""
    ensures ThumbnailUrl(ThumbnailSources("", ref, "", PhotoReferenceToken + mid + PhotoReferenceToken, "", ""))
            == ref + mid + PhotoReferenceToken
  {
    ReplaceFirstAtStart(PhotoReferenceToken, mid, ref);
  }
}

=== FILE: wrappers.dfy ===
/** Optional values: an absent JSON field, or a missing regular-expression match. */
module Wrappers {

  datatype Option<+T> = None | Some(value: T) {

    /** The carried value, or `default` when there is none. */
    function GetOr(default: T): T {
      match this
      case Some(v) => v
      case None => default
    }
  }
}
